=== FILE: README.md ===
# ballbox collision physics in Dafny

A model of the physics engine of `ballbox.py`, an animated box of bouncing balls. The model covers:

- the two-component vector type (`Vector2D`);
- a ball's per-step operations: mass, the explicit-Euler sub-step, the wall check, the overlap test, and the pair collision with its contact bookkeeping;
- one simulation step of the box (`Box.time_step`);
- the sub-step loop of an animation frame (`Box.update_fig`);
- the bounded-retry acceptance loop that places random balls (`Box.add_random_balls`).

Arithmetic is over Dafny's exact `real`. `math.sqrt` has no counterpart, so every operation that needs it takes a function `sqrt` and requires `IsSqrt(sqrt)`: on non-negative reals it returns the non-negative root. A ball's `in_collision` list becomes `touching: set<nat>`, a set of ball indices. The source only appends an entry that is absent, so a set loses nothing.

Modules, in dependency order:

- `Vectors` (vectors.dfy). Vector addition, scaling and dot product. The magnitude keeps the zero-vector policy (the zero vector has magnitude 1). Also the unit vector, and the normal/tangent basis the collision code builds.
- `Restitution` (restitution.dfy). The one-dimensional restitution formula of lines 82-87, with its momentum, separation-speed, uniqueness and energy laws.
- `Balls` (balls.dfy). The `Ball` record and its operations. Includes the first-match-wins wall check and the two-state contact machine of `check_ball_collision`.
- `Impact` (impact.dfy). The collision impulse in vector form: normal momentum, momentum vector, tangents, separation speed, kinetic energy.
- `Schedule` (schedule.dfy). The order in which `Box.time_step` advances balls and checks pairs. The `Visit` loop mirrors the source's nested loop.
- `Simulation` (simulation.dfy). The box, one step as that schedule folded over the box, the sub-steps of a frame, and the invariants they keep.
- `Placement` (placement.dfy). The acceptance loop of `add_random_balls`. The random draws are a stream `draw: nat -> Spawn`: attempt `t` uses `draw(t)`.

About the placement loop:

- It stops once `j > num * 5`, so at most `5 * num + 1` attempts are made.
- It reports no shortfall. The model returns the accepted attempt numbers (`picks`) and the number of attempts, so a caller can see one.

## Model

| member | source | states |
|---|---|---|
| `Vectors.Magnitude` | ballbox.py:31-33 | The result is positive; it is 1 for the zero vector, and otherwise its square is the vector's squared length. |
| `Vectors.UnitVector` | ballbox.py:35-36 | The zero vector maps to itself. Any other vector maps to a vector of length one, parallel to the input and pointing the same way. |
| `Vectors.Add` | ballbox.py:19-23 | The zero vector is neutral on either side. |
| `Vectors.Scale` | ballbox.py:25-29 | Scaling by 1 changes nothing, and scaling by 0 or scaling the zero vector gives the zero vector. |
| `Vectors.Dot` | ballbox.py:38-39 | The dot product of the components; its laws are stated by `Vectors.DotLaws`. |
| `Vectors.DotLaws` | ballbox.py:38-39 | The dot product is symmetric, additive and homogeneous in its first argument (so bilinear), and zero against the zero vector. |
| `Vectors.CombineCoordinates` | ballbox.py:88-93 | A velocity assembled from a normal and a tangential coordinate has exactly those coordinates along the unit normal and the tangent. |
| `Vectors.Decompose` | ballbox.py:77-93 | Any vector equals the combination of its own coordinates along a unit normal and its quarter turn. So rebuilding a velocity from its two scalars loses nothing. |
| `Balls.NewBall` | ballbox.py:43-45 | A new ball carries the given centre, radius, velocity and coefficient, and records no contacts. |
| `Balls.Mass` | ballbox.py:47-49 | The mass is non-negative and is zero exactly when the radius is zero. |
| `Balls.TimeStep` | ballbox.py:51-53 | A sub-step changes only the centre. |
| `Balls.SubStepDisplacement` | ballbox.py:51-53 | `n` times a sub-step's displacement equals the velocity, on each axis. |
| `Balls.CheckWallCollision` | ballbox.py:55-67 | Walls are checked in the order left, right, bottom, top with closed comparisons, and the first hit wins. The hit puts the ball on the bound and negates that velocity component, and nothing on the other axis changes. Only position and velocity can change, the speed is kept, at most one axis is touched, and a ball strictly inside all four bounds is unchanged. |
| `Balls.Move` | ballbox.py:144-145 | A sub-step followed by the wall check keeps the radius, coefficient and contacts. When the sub-step leaves the ball clear of every wall, the result is just the sub-step. |
| `Balls.Flight` | ballbox.py:150-151 | `k` such moves in a row, keeping radius, coefficient and contacts. `Simulation.LoneBallFrame` shows that the sub-steps of a frame do exactly this to a lone ball; `Balls.FlightIsFree` gives the position. |
| `Balls.FlightIsFree` | ballbox.py:149-151 | A ball that meets no wall during `k` sub-steps of a frame moves to the free position `k / n` of its velocity away. |
| `Balls.FrameMovesByVelocity` | ballbox.py:149-151 | With no wall contact, the `n` sub-steps of a frame move a ball by exactly its velocity and leave everything else unchanged. |
| `Balls.IsColliding` | ballbox.py:69-70 | For non-negative total radius, two balls overlap exactly when the squared centre distance is at most the squared sum of the radii; for a negative total radius they never overlap. |
| `Balls.CollidingSymmetric` | ballbox.py:69-70 | The overlap test does not depend on the order of the two balls. |
| `Balls.PairRestitution` | ballbox.py:75 | The pair's coefficient is the smaller of the two balls' coefficients. |
| `Balls.Normal` | ballbox.py:76 | The normal is zero for coincident centres. Otherwise it is a unit vector parallel to the centre difference and pointing from the first centre towards the second. |
| `Balls.Impulse` | ballbox.py:75-93 | The velocities after a fresh contact. Its meaning is stated by the `Impact` lemmas below: normal coordinates from the restitution law, tangents kept, momentum kept, energy kept at coefficient 1, and both velocities zero for coincident centres. |
| `Balls.CheckBallCollision` | ballbox.py:72-98 | Position, radius and coefficient never change. Velocities change only on a fresh contact (overlap, and not already recorded), and then by the impulse. Afterwards each ball records the other exactly when they overlap, and no other recorded contact changes. |
| `Balls.CheckBallCollisionIdempotent` | ballbox.py:72-98 | Checking the same pair again immediately changes nothing. The continued contact does nothing, and the first check leaves the two balls agreeing about the pair. |
| `Restitution.After` | ballbox.py:82-87 | The normal speed of one ball after the impact, the other's being the same formula with the roles swapped. Its meaning is stated by `Restitution.ConservesMomentum`, `Restitution.SeparationSpeed` and `Restitution.Unique`. |
| `Restitution.ConservesMomentum` | ballbox.py:82-87 | For every coefficient, the two post-impact normal speeds keep `m1*u1 + m2*u2`. |
| `Restitution.SeparationSpeed` | ballbox.py:82-87 | The speed of separation is the coefficient times the speed of approach. |
| `Restitution.Unique` | ballbox.py:82-87 | The formula's results are the only pair of speeds with both laws above, so it is Newton's law of restitution and nothing else. |
| `Restitution.ElasticKeepsEnergy` | ballbox.py:82-87 | With coefficient 1, `m1*u1^2 + m2*u2^2` is kept. |
| `Restitution.InelasticSticks` | ballbox.py:82-87 | With coefficient 0, both balls leave with the same normal speed. |
| `Impact.CoincidentCentresStop` | ballbox.py:76-93 | When the centres coincide, the normal is the zero vector and both balls end up with velocity zero. |
| `Impact.ImpulseCoordinates` | ballbox.py:78-93 | After the impulse, each ball's normal coordinate is the restitution formula's result and its tangential coordinate is the one it had. |
| `Impact.ConservesNormalMomentum` | ballbox.py:78-87 | Mass-weighted momentum along the line of centres is kept, for every coefficient. |
| `Impact.ConservesMomentumVector` | ballbox.py:78-93 | The total momentum vector `m1*v1 + m2*v2` is kept. |
| `Impact.KeepsTangents` | ballbox.py:77-93 | Each ball's component along the tangent `(-n.y, n.x)` is the same before and after. |
| `Impact.SeparatesAtRestitution` | ballbox.py:75-87 | Along the normal, the speed of separation is `min(e1, e2)` times the speed of approach. |
| `Impact.InelasticSameNormalSpeed` | ballbox.py:82-87 | With coefficient 0, the two normal coordinates after the impact are equal. |
| `Impact.ElasticKeepsNormalEnergy` | ballbox.py:82-87 | With coefficient 1, the mass-weighted sum of squared normal coordinates is kept. |
| `Impact.ElasticKeepsEnergyTotal` | ballbox.py:76-93 | With coefficient 1, the total kinetic energy `m1*|v1|^2 + m2*|v2|^2` is kept. |
| `Schedule.Order` | ballbox.py:142-147 | The order in which one step advances balls and checks pairs. `Schedule.Visit` shows the nested loop yields it, and `Schedule.OrderContents` and `Schedule.OrderAscending` state what it holds and in which order. |
| `Schedule.Visit` | ballbox.py:142-147 | The nested loop's visiting order is the schedule. It holds exactly the advances of existing balls and the pairs `i < j`, in ascending order, with `n*(n+1)/2` operations. |
| `Schedule.OrderContents` | ballbox.py:143-147 | An operation is in the schedule exactly when it advances an existing ball or checks a pair `i < j` of existing balls. |
| `Schedule.OrderAscending` | ballbox.py:143-147 | The schedule runs in lexicographic order of (ball, partner), each ball's advance first in its row. |
| `Schedule.OrderDistinct` | ballbox.py:143-147 | No advance and no pair check occurs twice in one step. |
| `Schedule.AdvanceAroundPair` | ballbox.py:143-147 | When pair `(i, j)` is checked, ball `i` has already been advanced in this step and ball `j` has not. |
| `Schedule.OrderLength` | ballbox.py:143-147 | A step performs `n` advances and `n*(n-1)/2` pair checks, `n*(n+1)/2` operations in all. |
| `Simulation.AdvanceBall` | ballbox.py:144-145 | Ball `i` becomes `Balls.Move` of itself, a sub-step followed by the wall check. No other ball changes, and ball `i` keeps its contacts, radius and coefficient. |
| `Simulation.ResolvePair` | ballbox.py:146-147 | A pair check changes no ball outside the pair. The pair becomes the result of `Balls.CheckBallCollision`. |
| `Simulation.ResolvePairSymmetric` | ballbox.py:94-98 | A pair check keeps the contacts mutual: `j` is recorded by `i` exactly when `i` is recorded by `j`. |
| `Simulation.ApplyOp` | ballbox.py:143-147 | One operation keeps the box size, every ball's radius and coefficient, mutual and in-range contacts and non-zero radii, and leaves the balls it does not name alone. |
| `Simulation.Apply` | ballbox.py:143-147 | Any run of valid operations keeps the same invariants as one operation. |
| `Simulation.TimeStep` | ballbox.py:142-147 | A step of the box keeps its size, its balls' radii and coefficients, and the mutual, in-range contact bookkeeping. |
| `Simulation.SubSteps` | ballbox.py:150-151 | Any number of sub-steps keeps the same invariants as one step. |
| `Simulation.UpdateFig` | ballbox.py:149-151 | A frame with a sub-step count of zero or less changes nothing. Otherwise the box's invariants are kept across its sub-steps. |
| `Simulation.LoneBallStep` | ballbox.py:142-147 | A step of a box holding one ball only moves that ball and checks the walls. |
| `Simulation.LoneBallFrame` | ballbox.py:149-151 | The first `k` sub-steps of a frame move a lone ball as `Balls.Flight` does, and change nothing else in the box. |
| `Simulation.LoneBallFrameMovesByVelocity` | ballbox.py:149-151 | A frame in which a lone ball meets no wall moves it by exactly its velocity and changes nothing else in the box. |
| `Placement.Candidate` | ballbox.py:132-135 | The candidate of one attempt has the drawn centre, size and velocity, the given coefficient, and no contacts. |
| `Placement.CollidesWithAny` | ballbox.py:136 | The rejection test: false for an empty box, true when the last ball overlaps; `Placement.CollidesWithAnyMeans` gives its full meaning. |
| `Placement.CollidesWithAnyMeans` | ballbox.py:136 | The rejection test holds exactly when some ball already in the box overlaps the candidate. |
| `Placement.AcceptStep` | ballbox.py:136-138 | Keeping a candidate that overlaps nothing keeps the loop's record: kept candidates in order, apart from everything present when drawn, and rejections explained. |
| `Placement.RejectStep` | ballbox.py:136-140 | Discarding an overlapping candidate keeps the same record, one attempt later. |
| `Placement.AddRandomBalls` | ballbox.py:123-140 | Existing balls stay, and at most `num` candidates are appended in attempt order, each with no contacts. There are at most `5*num + 1` attempts, and exactly that many when the loop stops short. Every kept candidate overlaps no ball present when it was drawn, and every discarded one overlaps one. |
| `Placement.PlacedApart` | ballbox.py:136-138 | The placed balls overlap neither each other nor any ball already in the box. |
| `Placement.PlacementKeepsContacts` | ballbox.py:132-138 | Appending new, contact-free balls keeps the box's contact bookkeeping mutual and in range. |

## Left out

- Rendering: the figure, axes and artists (lines 106-113, 117, 139) and the artist-centre update at the end of `update_fig` (lines 152-155). These are drawing side effects with no bearing on the physics state.
- `start_animation` (lines 157-178): the animation driver, file and window output. When writing a file it first multiplies every ball's velocity by `60 / fps` (lines 161-166), which does change the physics state; the model leaves this rescaling out, and a modelled frame starts from whatever velocities the box already holds.
- The command line (lines 181-230) is argument parsing.
- `Vector2D.__repr__` (lines 16-17) is debugging text.
- `Box.add_ball` and `Box.add_balls` (lines 115-121) only append constructed balls. Their artist registration is rendering.
- Randomness: `random`, `uniform` and `choice` (lines 128-134) and the colour choice. They become the input stream `draw`. The radius choice and the `size_factor` scaling are part of what `draw` supplies.
- Floating point: rounding is not modelled, and `math.sqrt` is an oracle with the root's defining property.
- Balls.TimeStep: requires a positive sub-step count. The source divides by any non-zero count, but its only caller is the `range(num_steps)` loop of `update_fig`, which runs only when the count is positive.
- Balls.CheckBallCollision: requires a non-zero total mass, since the source divides by it unguarded; a box meets this when no ball has radius zero.
- Balls.CheckBallCollision: requires the two balls to agree about the pair. The source looks only at the first ball's list and would raise on `list.remove` if the other disagreed. Every box reachable by the modelled operations keeps this agreement (`Simulation.Symmetric`).
- Impact.ConservesNormalMomentum: the impulse lemmas are stated for distinct centres. For coincident centres `Impact.CoincidentCentresStop` shows that both velocities become zero, which keeps neither momentum nor energy.
- Simulation.TimeStep: the step is the schedule of `Schedule.Order` folded over the box. The source's nested loop is modelled by `Schedule.Visit`, which yields exactly that schedule. No executable loop over the box is verified alongside the fold.
- Simulation.UpdateFig: "a frame with no wall contact moves each ball by its velocity" is proved for a box holding one ball (`Simulation.LoneBallFrameMovesByVelocity`). It is not proved for a box of several balls, where pair checks can change velocities.
- Balls.CheckWallCollision: the model follows the source's `elif` chain, in which a ball past two walls at once is corrected on one axis per call. It does not state what happens over several calls.

=== FILE: balls.dfy ===
/** A ball (class `Ball`, ballbox.py lines 42-98): position, radius,
    velocity, coefficient of restitution, and the set of balls it is
    currently touching.  The source keeps `in_collision` as a list of other
    `Ball` objects and only appends an entry that is absent, so it behaves as
    a set; here it holds the indices of those balls in the box's list. */
module Balls {
  import opened Vectors
  import opened Restitution

  datatype Ball = Ball(x: real, y: real, r: real, v: Vec, e: real, touching: set<nat>)

  /** `Ball.__init__`: a new ball touches nothing. */
  function NewBall(x: real, y: real, r: real, vx: real, vy: real, e: real): (b: Ball)
    ensures b.touching == {}
    ensures b.x == x && b.y == y && b.r == r && b.v == Vec(vx, vy) && b.e == e
  {
    Ball(x, y, r, Vec(vx, vy), e, {})
  }

  /** `Ball.mass`: the square of the radius. */
  function Mass(b: Ball): (m: real)
    ensures 0.0 <= m
    ensures m == 0.0 <==> b.r == 0.0
  {
    SqSign(b.r);
    Sq(b.r)
  }

  /** `Ball.time_step`: one explicit-Euler sub-step of `1 / n` of the
      velocity.  Python divides by the integer `n`, so `n == 0` raises. */
  function TimeStep(b: Ball, n: int): (c: Ball)
    requires n > 0
    ensures c == b.(x := c.x, y := c.y)
  {
    b.(x := b.x + b.v.x / n as real, y := b.y + b.v.y / n as real)
  }

  /** A sub-step moves the centre by `1 / n` of the velocity: `n` times the
      displacement is the velocity. */
  lemma SubStepDisplacement(b: Ball, n: int)
    requires n > 0
    ensures (TimeStep(b, n).x - b.x) * (n as real) == b.v.x
    ensures (TimeStep(b, n).y - b.y) * (n as real) == b.v.y
  {
    DivExactReal(b.v.x, n as real, b.v.x / n as real);
    DivExactReal(b.v.y, n as real, b.v.y / n as real);
  }

  /** The ball touches no wall of a `sizeX` by `sizeY` box. */
  predicate StrictlyInside(b: Ball, sizeX: real, sizeY: real) {
    b.r < b.x < sizeX - b.r && b.r < b.y < sizeY - b.r
  }

  /** `Ball.check_wall_collision`: the first of the left, right, bottom and
      top walls that the ball reaches, tested in that order with closed
      comparisons, puts the ball back on that wall and reverses the velocity
      component towards it.  Only that one wall is handled in a call. */
  function CheckWallCollision(b: Ball, sizeX: real, sizeY: real): (c: Ball)
    // only the position and velocity can change, and the speed does not
    ensures c == b.(x := c.x, y := c.y, v := c.v)
    ensures Dot(c.v, c.v) == Dot(b.v, b.v)
    // at most one axis is touched
    ensures (c.x == b.x && c.v.x == b.v.x) || (c.y == b.y && c.v.y == b.v.y)
    // left wall first
    ensures b.x <= b.r ==>
      c.x == b.r && c.v.x == -b.v.x && c.y == b.y && c.v.y == b.v.y
    // then the right wall
    ensures b.r < b.x && sizeX - b.r <= b.x ==>
      c.x == sizeX - b.r && c.v.x == -b.v.x && c.y == b.y && c.v.y == b.v.y
    // then the bottom wall, only when the ball is clear of both side walls
    ensures b.r < b.x < sizeX - b.r && b.y <= b.r ==>
      c.y == b.r && c.v.y == -b.v.y && c.x == b.x && c.v.x == b.v.x
    // then the top wall
    ensures b.r < b.x < sizeX - b.r && b.r < b.y && sizeY - b.r <= b.y ==>
      c.y == sizeY - b.r && c.v.y == -b.v.y && c.x == b.x && c.v.x == b.v.x
    // a ball touching no wall is left alone
    ensures StrictlyInside(b, sizeX, sizeY) ==> c == b
  {
    if b.x <= b.r then
      b.(x := b.r, v := Vec(-b.v.x, b.v.y))
    else if b.x >= sizeX - b.r then
      b.(x := sizeX - b.r, v := Vec(-b.v.x, b.v.y))
    else if b.y <= b.r then
      b.(y := b.r, v := Vec(b.v.x, -b.v.y))
    else if b.y >= sizeY - b.r then
      b.(y := sizeY - b.r, v := Vec(b.v.x, -b.v.y))
    else
      b
  }

  /** What `Box.time_step` does to one ball before its pair checks
      (ballbox.py lines 144-145): a sub-step, then the wall check. */
  function Move(b: Ball, n: int, sizeX: real, sizeY: real): (c: Ball)
    requires n > 0
    ensures c.r == b.r && c.e == b.e && c.touching == b.touching
    // a ball whose sub-step keeps it clear of every wall just takes the sub-step
    ensures StrictlyInside(TimeStep(b, n), sizeX, sizeY) ==> c == TimeStep(b, n)
  {
    CheckWallCollision(TimeStep(b, n), sizeX, sizeY)
  }

  /** `k` moves in a row, as the `k` sub-steps of a frame do to the only ball
      of a box (`Simulation.LoneBallFrame`). */
  function Flight(b: Ball, k: nat, n: int, sizeX: real, sizeY: real): (c: Ball)
    requires n > 0
    ensures c.r == b.r && c.e == b.e && c.touching == b.touching
  {
    if k == 0 then b else Move(Flight(b, k - 1, n, sizeX, sizeY), n, sizeX, sizeY)
  }

  /** Where the ball would be after `s` sub-steps of `1 / n` with no wall in
      the way. */
  function Free(b: Ball, s: nat, n: int): Ball
    requires n > 0
  {
    b.(x := b.x + (s as real) * b.v.x / (n as real), y := b.y + (s as real) * b.v.y / (n as real))
  }

  /** The ball's free positions after sub-steps `1 .. k` all stay clear of
      the walls. */
  predicate ClearFor(b: Ball, k: nat, n: int, sizeX: real, sizeY: real)
    requires n > 0
  {
    forall s: nat :: 1 <= s <= k ==> StrictlyInside(Free(b, s, n), sizeX, sizeY)
  }

  lemma StepArith(p: real, v: real, s: real, t: real, n: real)
    requires n > 0.0 && t == s + 1.0
    ensures p + s * v / n + v / n == p + t * v / n
  {
    var q := v / n;
    DivExactReal(v, n, q);
    DivExactReal(s * v, n, s * q);
    DivExactReal(t * v, n, t * q);
  }

  lemma DivExactReal(a: real, d: real, q: real)
    requires d != 0.0 && q * d == a
    ensures a / d == q
  {
  }

  /** One sub-step from the free position after `s` steps is the free
      position after `s + 1`. */
  lemma TimeStepFree(b: Ball, s: nat, n: int)
    requires n > 0
    ensures TimeStep(Free(b, s, n), n) == Free(b, s + 1, n)
  {
    StepArith(b.x, b.v.x, s as real, (s + 1) as real, n as real);
    StepArith(b.y, b.v.y, s as real, (s + 1) as real, n as real);
  }

  /** A ball that stays clear of the walls moves in a straight line: after
      `k` moves it is at its free position. */
  lemma {:induction false} FlightIsFree(b: Ball, k: nat, n: int, sizeX: real, sizeY: real)
    requires n > 0
    requires ClearFor(b, k, n, sizeX, sizeY)
    ensures Flight(b, k, n, sizeX, sizeY) == Free(b, k, n)
  {
    if k == 0 {
      FreeAtStart(b, n);
    } else {
      assert ClearFor(b, k - 1, n, sizeX, sizeY);
      FlightIsFree(b, k - 1, n, sizeX, sizeY);
      TimeStepFree(b, k - 1, n);
      assert StrictlyInside(Free(b, k, n), sizeX, sizeY);
    }
  }

  lemma FreeAtStart(b: Ball, n: int)
    requires n > 0
    ensures Free(b, 0, n) == b
  {
    assert 0.0 * b.v.x / (n as real) == 0.0;
    assert 0.0 * b.v.y / (n as real) == 0.0;
  }

  lemma WholeStep(p: real, v: real, m: real)
    requires m > 0.0
    ensures p + m * v / m == p + v
  {
    DivExactReal(m * v, m, v);
  }

  /** After `n` sub-steps of `1 / n` the free position is one whole velocity
      further on. */
  lemma FreeWholeFrame(b: Ball, n: int)
    requires n > 0
    ensures Free(b, n, n) == b.(x := b.x + b.v.x, y := b.y + b.v.y)
  {
    WholeStep(b.x, b.v.x, n as real);
    WholeStep(b.y, b.v.y, n as real);
  }

  /** Over one frame of `n` sub-steps (ballbox.py lines 149-151), a ball
      that meets neither a wall nor another ball moves by exactly its
      velocity. */
  lemma FrameMovesByVelocity(b: Ball, n: int, sizeX: real, sizeY: real)
    requires n > 0
    requires ClearFor(b, n, n, sizeX, sizeY)
    ensures Flight(b, n, n, sizeX, sizeY) == b.(x := b.x + b.v.x, y := b.y + b.v.y)
  {
    FlightIsFree(b, n, n, sizeX, sizeY);
    FreeWholeFrame(b, n);
  }

  /** Squared distance between the centres. */
  function DistSq(a: Ball, b: Ball): real {
    (b.x - a.x) * (b.x - a.x) + (b.y - a.y) * (b.y - a.y)
  }

  lemma SquareMonotone(s: real, t: real)
    requires 0.0 <= s && 0.0 <= t
    ensures s <= t <==> Sq(s) <= Sq(t)
  {
    if s <= t {
      assert Sq(t) - Sq(s) == (t - s) * (t + s);
      if t - s != 0.0 {
        MulPos(t - s, t + s, Sq(t) - Sq(s));
      }
    } else {
      assert Sq(s) - Sq(t) == (s - t) * (s + t);
      MulPos(s - t, s + t, Sq(s) - Sq(t));
    }
  }

  /** `Ball.is_colliding`: the distance between the centres is at most the
      sum of the radii, the boundary included.  For radii whose sum is not
      negative this is the squared comparison, which needs no square root. */
  function IsColliding(a: Ball, b: Ball, sqrt: real -> real): (c: bool)
    requires IsSqrt(sqrt)
    ensures 0.0 <= a.r + b.r ==> (c <==> DistSq(a, b) <= Sq(a.r + b.r))
    ensures a.r + b.r < 0.0 ==> !c
  {
    RootComparison(a, b, sqrt);
    sqrt((b.x - a.x) * (b.x - a.x) + (b.y - a.y) * (b.y - a.y)) <= a.r + b.r
  }

  lemma RootComparison(a: Ball, b: Ball, sqrt: real -> real)
    requires IsSqrt(sqrt)
    ensures 0.0 <= a.r + b.r ==>
      (sqrt(DistSq(a, b)) <= a.r + b.r <==> DistSq(a, b) <= Sq(a.r + b.r))
    ensures 0.0 <= sqrt(DistSq(a, b))
  {
    DotSelf(Vec(b.x - a.x, b.y - a.y));
    Root(sqrt, DistSq(a, b));
    if 0.0 <= a.r + b.r {
      SquareMonotone(sqrt(DistSq(a, b)), a.r + b.r);
    }
  }

  /** Overlap does not depend on which ball is asked. */
  lemma CollidingSymmetric(a: Ball, b: Ball, sqrt: real -> real)
    requires IsSqrt(sqrt)
    ensures IsColliding(a, b, sqrt) == IsColliding(b, a, sqrt)
  {
    assert DistSq(a, b) == DistSq(b, a);
  }

  /** Overlap depends only on the centres and radii. */
  lemma CollidingDependsOnPlace(a: Ball, b: Ball, c: Ball, d: Ball, sqrt: real -> real)
    requires IsSqrt(sqrt)
    requires c.x == a.x && c.y == a.y && c.r == a.r
    requires d.x == b.x && d.y == b.y && d.r == b.r
    ensures IsColliding(c, d, sqrt) == IsColliding(a, b, sqrt)
  {
    assert Vec(d.x - c.x, d.y - c.y) == Vec(b.x - a.x, b.y - a.y);
  }

  /** The pair's coefficient of restitution, Python's `min(self.e, other.e)`. */
  function PairRestitution(a: Ball, b: Ball): (e: real)
    ensures e <= a.e && e <= b.e
    ensures e == a.e || e == b.e
  {
    if b.e < a.e then b.e else a.e
  }

  predicate SameCentre(a: Ball, b: Ball) {
    a.x == b.x && a.y == b.y
  }

  /** Unit vector from the first centre to the second; the zero vector when
      the centres coincide. */
  function Normal(a: Ball, b: Ball, sqrt: real -> real): (n: Vec)
    requires IsSqrt(sqrt)
    ensures SameCentre(a, b) ==> n == Zero
    ensures !SameCentre(a, b) ==> Dot(n, n) == 1.0
    ensures !SameCentre(a, b) ==> 0.0 < Dot(n, Vec(b.x - a.x, b.y - a.y))
    ensures !SameCentre(a, b) ==> n.x * (b.y - a.y) == n.y * (b.x - a.x)
  {
    var d := Vec(b.x - a.x, b.y - a.y);
    assert SameCentre(a, b) <==> d == Zero;
    UnitVector(d, sqrt)
  }

  /** The velocities after a fresh contact (ballbox.py lines 75-93): each
      velocity is split into its coordinates along the unit normal and the
      unit tangent, the normal ones go through the impact law, and the
      velocity is put back together from the new normal coordinate and the
      unchanged tangential one. */
  function Impulse(a: Ball, b: Ball, sqrt: real -> real): (Vec, Vec)
    requires IsSqrt(sqrt)
    requires Mass(a) + Mass(b) != 0.0
  {
    var e := PairRestitution(a, b);
    var n := Normal(a, b, sqrt);
    var t := Perp(n);
    var u1, w1 := Dot(a.v, n), Dot(a.v, t);
    var u2, w2 := Dot(b.v, n), Dot(b.v, t);
    (Combine(n, After(u1, u2, Mass(a), Mass(b), e), w1),
     Combine(n, After(u2, u1, Mass(b), Mass(a), e), w2))
  }

  /** The contact is new: the balls overlap and `b` (index `j`) is not yet in
      `a`'s touching set. */
  predicate FreshContact(a: Ball, b: Ball, j: nat, sqrt: real -> real)
    requires IsSqrt(sqrt)
  {
    IsColliding(a, b, sqrt) && j !in a.touching
  }

  /** `Ball.check_ball_collision` for ball `a` at index `i` against ball `b`
      at index `j`: a two-state machine per pair.  A new contact applies one
      impulse and records the contact on both sides; a continuing contact
      does nothing; a separation only forgets the contact.  The source looks
      only at `a`'s list and then appends to or removes from both lists, so
      it needs both balls to agree about the pair (a removal from a list that
      lacks the entry raises); that agreement is the precondition. */
  function CheckBallCollision(a: Ball, i: nat, b: Ball, j: nat, sqrt: real -> real): (res: (Ball, Ball))
    requires IsSqrt(sqrt)
    requires i != j
    requires j in a.touching <==> i in b.touching
    requires Mass(a) + Mass(b) != 0.0
    // positions, radii and coefficients never change
    ensures res.0 == a.(v := res.0.v, touching := res.0.touching)
    ensures res.1 == b.(v := res.1.v, touching := res.1.touching)
    // velocities change only on a new contact, and then by the impulse
    ensures FreshContact(a, b, j, sqrt) ==> (res.0.v, res.1.v) == Impulse(a, b, sqrt)
    ensures !FreshContact(a, b, j, sqrt) ==> res.0.v == a.v && res.1.v == b.v
    // afterwards each ball records the other exactly when they overlap
    ensures j in res.0.touching <==> IsColliding(a, b, sqrt)
    ensures i in res.1.touching <==> IsColliding(a, b, sqrt)
    // no other contact is touched
    ensures res.0.touching - {j} == a.touching - {j}
    ensures res.1.touching - {i} == b.touching - {i}
  {
    if IsColliding(a, b, sqrt) then
      if j !in a.touching then
        var (v1, v2) := Impulse(a, b, sqrt);
        (a.(v := v1, touching := a.touching + {j}), b.(v := v2, touching := b.touching + {i}))
      else
        (a, b)
    else if j in a.touching then
      (a.(touching := a.touching - {j}), b.(touching := b.touching - {i}))
    else
      (a, b)
  }

  /** Checking the same pair twice in a row changes nothing the second time:
      positions are untouched, so the second check sees the contact state
      the first one left. */
  lemma {:induction false} CheckBallCollisionIdempotent(a: Ball, i: nat, b: Ball, j: nat, sqrt: real -> real)
    requires IsSqrt(sqrt)
    requires i != j
    requires j in a.touching <==> i in b.touching
    requires Mass(a) + Mass(b) != 0.0
    ensures var (c, d) := CheckBallCollision(a, i, b, j, sqrt);
            && (j in c.touching <==> i in d.touching)
            && Mass(c) + Mass(d) != 0.0
            && CheckBallCollision(c, i, d, j, sqrt) == (c, d)
  {
    var res := CheckBallCollision(a, i, b, j, sqrt);
    var c, d := res.0, res.1;
    assert c.x == a.x && c.y == a.y && c.r == a.r;
    assert d.x == b.x && d.y == b.y && d.r == b.r;
    CollidingDependsOnPlace(a, b, c, d, sqrt);
    assert Mass(c) == Mass(a) && Mass(d) == Mass(b);
    assert !FreshContact(c, d, j, sqrt);
    var again := CheckBallCollision(c, i, d, j, sqrt);
    assert again.0.touching == c.touching;
    assert again.1.touching == d.touching;
  }
}

=== FILE: impact.dfy ===
/** What one impulse of `CheckBallCollision` does to the pair (ballbox.py
    lines 75-93), stated in terms of the unit normal `n` and tangent
    `Perp(n)` the source computes.  The proofs pass products through
    `Reweigh` and `Rescale` explicitly, because the solver does not reliably
    rewrite inside non-linear terms. */
module Impact {
  import opened Vectors
  import opened Restitution
  import opened Balls

  /** The ingredients of `Impulse`, named: the normal `n`, the coefficient
      `e`, the masses, and the normal (`u`) and tangential (`w`) coordinates
      of both velocities before the impact. */
  lemma Parts(a: Ball, b: Ball, sqrt: real -> real)
      returns (n: Vec, e: real, m1: real, m2: real, u1: real, u2: real, w1: real, w2: real)
    requires IsSqrt(sqrt)
    requires Mass(a) + Mass(b) != 0.0
    ensures n == Normal(a, b, sqrt) && e == PairRestitution(a, b)
    ensures m1 == Mass(a) && m2 == Mass(b) && m1 + m2 != 0.0
    ensures u1 == Dot(a.v, n) && u2 == Dot(b.v, n)
    ensures w1 == Dot(a.v, Perp(n)) && w2 == Dot(b.v, Perp(n))
    ensures Impulse(a, b, sqrt) == (Combine(n, After(u1, u2, m1, m2, e), w1),
                                    Combine(n, After(u2, u1, m2, m1, e), w2))
  {
    n := Normal(a, b, sqrt);
    e := PairRestitution(a, b);
    m1, m2 := Mass(a), Mass(b);
    u1, u2 := Dot(a.v, n), Dot(b.v, n);
    w1, w2 := Dot(a.v, Perp(n)), Dot(b.v, Perp(n));
  }

  /** When the centres coincide the normal is the zero vector, and the
      impulse stops both balls. */
  lemma CoincidentCentresStop(a: Ball, b: Ball, sqrt: real -> real)
    requires IsSqrt(sqrt)
    requires Mass(a) + Mass(b) != 0.0
    requires SameCentre(a, b)
    ensures Normal(a, b, sqrt) == Zero
    ensures Impulse(a, b, sqrt) == (Zero, Zero)
  {
    var n, e, m1, m2, u1, u2, w1, w2 := Parts(a, b, sqrt);
    assert n == Zero;
    CombineZero(After(u1, u2, m1, m2, e), w1);
    CombineZero(After(u2, u1, m2, m1, e), w2);
  }

  /** When the centres differ, the new velocities have the impact law's
      normal coordinates and the old tangential ones. */
  lemma {:induction false} ImpulseCoordinates(a: Ball, b: Ball, sqrt: real -> real)
    requires IsSqrt(sqrt)
    requires Mass(a) + Mass(b) != 0.0
    requires !SameCentre(a, b)
    ensures var n := Normal(a, b, sqrt);
            var e := PairRestitution(a, b);
            var (v1, v2) := Impulse(a, b, sqrt);
            && Dot(v1, n) == After(Dot(a.v, n), Dot(b.v, n), Mass(a), Mass(b), e)
            && Dot(v2, n) == After(Dot(b.v, n), Dot(a.v, n), Mass(b), Mass(a), e)
            && Dot(v1, Perp(n)) == Dot(a.v, Perp(n))
            && Dot(v2, Perp(n)) == Dot(b.v, Perp(n))
  {
    var n, e, m1, m2, u1, u2, w1, w2 := Parts(a, b, sqrt);
    CombineCoordinates(n, After(u1, u2, m1, m2, e), w1);
    CombineCoordinates(n, After(u2, u1, m2, m1, e), w2);
  }

  /** Momentum along the line of centres is conserved for every coefficient
      of restitution. */
  lemma {:induction false} ConservesNormalMomentum(a: Ball, b: Ball, sqrt: real -> real)
    requires IsSqrt(sqrt)
    requires Mass(a) + Mass(b) != 0.0
    requires !SameCentre(a, b)
    ensures var n := Normal(a, b, sqrt);
            var (v1, v2) := Impulse(a, b, sqrt);
            Mass(a) * Dot(v1, n) + Mass(b) * Dot(v2, n) == Mass(a) * Dot(a.v, n) + Mass(b) * Dot(b.v, n)
  {
    var n, e, m1, m2, u1, u2, w1, w2 := Parts(a, b, sqrt);
    ConservesMomentum(u1, u2, m1, m2, e);
    var after := m1 * After(u1, u2, m1, m2, e) + m2 * After(u2, u1, m2, m1, e);
    var before := m1 * u1 + m2 * u2;
    assert after == before;
    ImpulseCoordinates(a, b, sqrt);
    Reweigh(Mass(a), Dot(Impulse(a, b, sqrt).0, Normal(a, b, sqrt)), m1, After(u1, u2, m1, m2, e),
            Mass(b), Dot(Impulse(a, b, sqrt).1, Normal(a, b, sqrt)), m2, After(u2, u1, m2, m1, e));
    Reweigh(Mass(a), Dot(a.v, Normal(a, b, sqrt)), m1, u1, Mass(b), Dot(b.v, Normal(a, b, sqrt)), m2, u2);
  }

  /** When the centres differ the whole momentum vector is conserved: the
      normal part by the impact law, the tangential part because each
      tangential velocity is kept. */
  lemma {:induction false} ConservesMomentumVector(a: Ball, b: Ball, sqrt: real -> real)
    requires IsSqrt(sqrt)
    requires Mass(a) + Mass(b) != 0.0
    requires !SameCentre(a, b)
    ensures var (v1, v2) := Impulse(a, b, sqrt);
            Add(Scale(v1, Mass(a)), Scale(v2, Mass(b))) == Add(Scale(a.v, Mass(a)), Scale(b.v, Mass(b)))
  {
    var n, e, m1, m2, u1, u2, w1, w2 := Parts(a, b, sqrt);
    var a1, a2 := After(u1, u2, m1, m2, e), After(u2, u1, m2, m1, e);
    ConservesMomentum(u1, u2, m1, m2, e);
    var before, after, tangent := m1 * u1 + m2 * u2, m1 * a1 + m2 * a2, m1 * w1 + m2 * w2;
    assert after == before;
    CombineLinear(n, a1, w1, a2, w2, m1, m2);
    CombineLinear(n, u1, w1, u2, w2, m1, m2);
    Decompose(a.v, n);
    Decompose(b.v, n);
    calc {
      Add(Scale(Impulse(a, b, sqrt).0, m1), Scale(Impulse(a, b, sqrt).1, m2));
      Add(Scale(Combine(n, a1, w1), m1), Scale(Combine(n, a2, w2), m2));
      Combine(n, after, tangent);
      Combine(n, before, tangent);
      Add(Scale(Combine(n, u1, w1), m1), Scale(Combine(n, u2, w2), m2));
      Add(Scale(a.v, m1), Scale(b.v, m2));
    }
  }

  /** Each ball keeps its velocity along the tangent. */
  lemma {:induction false} KeepsTangents(a: Ball, b: Ball, sqrt: real -> real)
    requires IsSqrt(sqrt)
    requires Mass(a) + Mass(b) != 0.0
    requires !SameCentre(a, b)
    ensures var t := Perp(Normal(a, b, sqrt));
            var (v1, v2) := Impulse(a, b, sqrt);
            Dot(v1, t) == Dot(a.v, t) && Dot(v2, t) == Dot(b.v, t)
  {
    ImpulseCoordinates(a, b, sqrt);
  }

  /** The balls separate along the normal at `e` times the speed at which
      they approached, `e` being the smaller of the two coefficients. */
  lemma {:induction false} SeparatesAtRestitution(a: Ball, b: Ball, sqrt: real -> real)
    requires IsSqrt(sqrt)
    requires Mass(a) + Mass(b) != 0.0
    requires !SameCentre(a, b)
    ensures var n := Normal(a, b, sqrt);
            var (v1, v2) := Impulse(a, b, sqrt);
            Dot(v2, n) - Dot(v1, n) == PairRestitution(a, b) * (Dot(a.v, n) - Dot(b.v, n))
  {
    var n, e, m1, m2, u1, u2, w1, w2 := Parts(a, b, sqrt);
    SeparationSpeed(u1, u2, m1, m2, e);
    ImpulseCoordinates(a, b, sqrt);
    Rescale(PairRestitution(a, b), Dot(a.v, Normal(a, b, sqrt)) - Dot(b.v, Normal(a, b, sqrt)), e, u1 - u2);
  }

  /** With `e == 0` both balls leave with the same normal velocity. */
  lemma {:induction false} InelasticSameNormalSpeed(a: Ball, b: Ball, sqrt: real -> real)
    requires IsSqrt(sqrt)
    requires Mass(a) + Mass(b) != 0.0
    requires !SameCentre(a, b)
    requires PairRestitution(a, b) == 0.0
    ensures var n := Normal(a, b, sqrt);
            var (v1, v2) := Impulse(a, b, sqrt);
            Dot(v1, n) == Dot(v2, n)
  {
    SeparatesAtRestitution(a, b, sqrt);
  }

  /** With `e == 1` the kinetic energy of the motion along the normal is
      conserved. */
  lemma {:induction false} ElasticKeepsNormalEnergy(a: Ball, b: Ball, sqrt: real -> real)
    requires IsSqrt(sqrt)
    requires Mass(a) + Mass(b) != 0.0
    requires !SameCentre(a, b)
    requires PairRestitution(a, b) == 1.0
    ensures var n := Normal(a, b, sqrt);
            var (v1, v2) := Impulse(a, b, sqrt);
            EnergyKept(Mass(a), Mass(b), Dot(v1, n), Dot(v2, n), Dot(a.v, n), Dot(b.v, n))
  {
    var n, e, m1, m2, u1, u2, w1, w2 := Parts(a, b, sqrt);
    ElasticKeepsEnergy(u1, u2, m1, m2);
    ImpulseCoordinates(a, b, sqrt);
  }

  /** Twice the kinetic energy of velocities `v1`, `v2` equals that of `w1`,
      `w2` for bodies of masses `m1`, `m2`. */
  predicate KineticEnergyKept(m1: real, m2: real, v1: Vec, v2: Vec, w1: Vec, w2: Vec) {
    m1 * Dot(v1, v1) + m2 * Dot(v2, v2) == m1 * Dot(w1, w1) + m2 * Dot(w2, w2)
  }

  /** Energies that split into a normal part, whose weighted sums agree, and
      a tangential part, which agrees term by term, have equal weighted sums. */
  lemma EnergySplit(m1: real, m2: real, k1: real, k2: real, l1: real, l2: real,
                    p1: real, q1: real, p2: real, q2: real,
                    r1: real, s1: real, r2: real, s2: real)
    requires k1 == p1 + q1 && k2 == p2 + q2 && l1 == r1 + s1 && l2 == r2 + s2
    requires m1 * p1 + m2 * p2 == m1 * r1 + m2 * r2
    requires q1 == s1 && q2 == s2
    ensures m1 * k1 + m2 * k2 == m1 * l1 + m2 * l2
  {
    assert m1 * k1 + m2 * k2 == (m1 * p1 + m2 * p2) + (m1 * q1 + m2 * q2);
    assert m1 * l1 + m2 * l2 == (m1 * r1 + m2 * r2) + (m1 * s1 + m2 * s2);
  }

  /** Two pairs of velocities with the same weighted energy along a unit
      vector `n` and the same coordinates along `Perp(n)` have the same
      weighted energy. */
  lemma {:induction false} EnergyFromCoordinates(m1: real, m2: real, n: Vec, v1: Vec, v2: Vec, w1: Vec, w2: Vec)
    requires Dot(n, n) == 1.0
    requires EnergyKept(m1, m2, Dot(v1, n), Dot(v2, n), Dot(w1, n), Dot(w2, n))
    requires Dot(v1, Perp(n)) == Dot(w1, Perp(n)) && Dot(v2, Perp(n)) == Dot(w2, Perp(n))
    ensures KineticEnergyKept(m1, m2, v1, v2, w1, w2)
  {
    Pythagoras(v1, n);
    Pythagoras(v2, n);
    Pythagoras(w1, n);
    Pythagoras(w2, n);
    EnergySplit(m1, m2, Dot(v1, v1), Dot(v2, v2), Dot(w1, w1), Dot(w2, w2),
                Sq(Dot(v1, n)), Sq(Dot(v1, Perp(n))), Sq(Dot(v2, n)), Sq(Dot(v2, Perp(n))),
                Sq(Dot(w1, n)), Sq(Dot(w1, Perp(n))), Sq(Dot(w2, n)), Sq(Dot(w2, Perp(n))));
  }

  /** With `e == 1` the whole kinetic energy is conserved: the normal part by
      the impact law, the tangential part because it is untouched. */
  lemma {:induction false} ElasticKeepsEnergyTotal(a: Ball, b: Ball, sqrt: real -> real)
    requires IsSqrt(sqrt)
    requires Mass(a) + Mass(b) != 0.0
    requires !SameCentre(a, b)
    requires PairRestitution(a, b) == 1.0
    ensures var (v1, v2) := Impulse(a, b, sqrt);
            KineticEnergyKept(Mass(a), Mass(b), v1, v2, a.v, b.v)
  {
    KeepsTangents(a, b, sqrt);
    ElasticKeepsNormalEnergy(a, b, sqrt);
    EnergyFromCoordinates(Mass(a), Mass(b), Normal(a, b, sqrt),
                          Impulse(a, b, sqrt).0, Impulse(a, b, sqrt).1, a.v, b.v);
  }
}

=== FILE: placement.dfy ===
/** The acceptance loop of `Box.add_random_balls` (ballbox.py lines 123-140).
    Each attempt draws a candidate ball; it is kept only if it overlaps none
    of the balls already in the box, and the loop gives up once more than
    `5 * num` attempts have been made.  The random draws are an input here:
    attempt `t` uses the values `draw(t)`. */
module Placement {
  import opened Vectors
  import opened Balls
  import Simulation

  /** The values one attempt draws: a radius, a centre and a velocity. */
  datatype Spawn = Spawn(size: real, x: real, y: real, vx: real, vy: real)

  /** The candidate ball of one attempt (lines 132-135). */
  function Candidate(s: Spawn, e: real): (b: Ball)
    ensures b.x == s.x && b.y == s.y && b.r == s.size && b.e == e
    ensures b.v == Vec(s.vx, s.vy) && b.touching == {}
  {
    NewBall(s.x, s.y, s.size, s.vx, s.vy, e)
  }

  /** Line 136: the candidate overlaps some ball of `balls`. */
  function CollidesWithAny(b: Ball, balls: seq<Ball>, sqrt: real -> real): (c: bool)
    requires IsSqrt(sqrt)
    ensures balls == [] ==> !c
    ensures |balls| > 0 && IsColliding(b, balls[|balls| - 1], sqrt) ==> c
  {
    if balls == [] then false
    else CollidesWithAny(b, balls[..|balls| - 1], sqrt) || IsColliding(b, balls[|balls| - 1], sqrt)
  }

  /** `CollidesWithAny` is Python's `any` over the list: some ball overlaps. */
  lemma {:induction false} CollidesWithAnyMeans(b: Ball, balls: seq<Ball>, sqrt: real -> real)
    requires IsSqrt(sqrt)
    ensures CollidesWithAny(b, balls, sqrt) <==> exists q :: 0 <= q < |balls| && IsColliding(b, balls[q], sqrt)
  {
    if balls != [] {
      var init := balls[..|balls| - 1];
      CollidesWithAnyMeans(b, init, sqrt);
      if CollidesWithAny(b, init, sqrt) {
        var q :| 0 <= q < |init| && IsColliding(b, init[q], sqrt);
        assert balls[q] == init[q];
      }
      if exists q :: 0 <= q < |balls| && IsColliding(b, balls[q], sqrt) {
        var q :| 0 <= q < |balls| && IsColliding(b, balls[q], sqrt);
        if q < |init| {
          assert init[q] == balls[q];
        }
      }
    }
  }

  /** How many of the accepted attempts `picks` came before attempt `t`. */
  function CountBelow(picks: seq<nat>, t: nat): (c: nat)
    ensures c <= |picks|
  {
    if picks == [] then 0
    else CountBelow(picks[..|picks| - 1], t) + (if picks[|picks| - 1] < t then 1 else 0)
  }

  lemma CountBelowAll(picks: seq<nat>, t: nat)
    requires forall k :: 0 <= k < |picks| ==> picks[k] < t
    ensures CountBelow(picks, t) == |picks|
  {
    if picks != [] {
      CountBelowAll(picks[..|picks| - 1], t);
    }
  }

  lemma CountBelowSnoc(picks: seq<nat>, p: nat, t: nat)
    requires t <= p
    ensures CountBelow(picks + [p], t) == CountBelow(picks, t)
  {
    assert (picks + [p])[..|picks|] == picks;
  }

  predicate StrictlyIncreasing(picks: seq<nat>) {
    forall k1, k2 :: 0 <= k1 < k2 < |picks| ==> picks[k1] < picks[k2]
  }

  /** Every attempt before `attempts` that was not kept drew a candidate
      overlapping a ball present at that time: the original balls and the
      candidates kept before it. */
  predicate RejectionsRecorded(balls: seq<Ball>, result: seq<Ball>, picks: seq<nat>, attempts: nat,
                               e: real, draw: nat -> Spawn, sqrt: real -> real)
    requires IsSqrt(sqrt)
    requires |result| == |balls| + |picks|
  {
    forall t: nat :: t < attempts && t !in picks ==>
      CollidesWithAny(Candidate(draw(t), e), result[..|balls| + CountBelow(picks, t)], sqrt)
  }

  /** Accepting the candidate of attempt `a` keeps the record of every
      earlier rejection: the balls present at those attempts are unchanged. */
  lemma AcceptKeepsRejections(balls: seq<Ball>, result: seq<Ball>, picks: seq<nat>, a: nat,
                              ball: Ball, e: real, draw: nat -> Spawn, sqrt: real -> real)
    requires IsSqrt(sqrt)
    requires |result| == |balls| + |picks|
    requires RejectionsRecorded(balls, result, picks, a, e, draw, sqrt)
    ensures RejectionsRecorded(balls, result + [ball], picks + [a], a + 1, e, draw, sqrt)
  {
    forall t: nat | t < a + 1 && t !in picks + [a]
      ensures CollidesWithAny(Candidate(draw(t), e), (result + [ball])[..|balls| + CountBelow(picks + [a], t)], sqrt)
    {
      CountBelowSnoc(picks, a, t);
      var m := |balls| + CountBelow(picks, t);
      assert (result + [ball])[..m] == result[..m];
    }
  }

  /** Rejecting the candidate of attempt `a` records that it overlapped one
      of the balls present, which are all the balls so far. */
  lemma RejectKeepsRejections(balls: seq<Ball>, result: seq<Ball>, picks: seq<nat>, a: nat,
                              e: real, draw: nat -> Spawn, sqrt: real -> real)
    requires IsSqrt(sqrt)
    requires |result| == |balls| + |picks|
    requires forall k :: 0 <= k < |picks| ==> picks[k] < a
    requires RejectionsRecorded(balls, result, picks, a, e, draw, sqrt)
    requires CollidesWithAny(Candidate(draw(a), e), result, sqrt)
    ensures RejectionsRecorded(balls, result, picks, a + 1, e, draw, sqrt)
  {
    forall t: nat | t < a + 1 && t !in picks
      ensures CollidesWithAny(Candidate(draw(t), e), result[..|balls| + CountBelow(picks, t)], sqrt)
    {
      if t == a {
        CountBelowAll(picks, a);
        var m := |balls| + CountBelow(picks, a);
        assert m == |result|;
        assert result[..m] == result;
        assert CollidesWithAny(Candidate(draw(t), e), result[..|balls| + CountBelow(picks, t)], sqrt);
      } else {
        assert t < a;
        assert CollidesWithAny(Candidate(draw(t), e), result[..|balls| + CountBelow(picks, t)], sqrt);
      }
    }
  }

  /** What the loop knows after `attempts` attempts that kept the attempts
      `picks`: the original balls come first and the kept candidates follow
      in order, new balls touch nothing, every kept candidate overlapped
      none of the balls present when it was drawn, and every other attempt
      overlapped one of them. */
  predicate Placed(balls: seq<Ball>, result: seq<Ball>, picks: seq<nat>, attempts: nat,
                   e: real, draw: nat -> Spawn, sqrt: real -> real)
    requires IsSqrt(sqrt)
  {
    && |result| == |balls| + |picks| && result[..|balls|] == balls
    && (forall k :: 0 <= k < |picks| ==> result[|balls| + k] == Candidate(draw(picks[k]), e))
    && (forall p :: |balls| <= p < |result| ==> result[p].touching == {})
    && StrictlyIncreasing(picks)
    && (forall k :: 0 <= k < |picks| ==> picks[k] < attempts)
    && (forall k, q :: 0 <= k < |picks| && 0 <= q < |balls| + k ==>
          !IsColliding(Candidate(draw(picks[k]), e), result[q], sqrt))
    && RejectionsRecorded(balls, result, picks, attempts, e, draw, sqrt)
  }

  /** Keeping the candidate of attempt `a`, which overlaps no ball present. */
  lemma AcceptStep(balls: seq<Ball>, result: seq<Ball>, picks: seq<nat>, a: nat,
                   e: real, draw: nat -> Spawn, sqrt: real -> real)
    requires IsSqrt(sqrt)
    requires Placed(balls, result, picks, a, e, draw, sqrt)
    requires !CollidesWithAny(Candidate(draw(a), e), result, sqrt)
    ensures Placed(balls, result + [Candidate(draw(a), e)], picks + [a], a + 1, e, draw, sqrt)
  {
    var ball := Candidate(draw(a), e);
    CollidesWithAnyMeans(ball, result, sqrt);
    AcceptKeepsRejections(balls, result, picks, a, ball, e, draw, sqrt);
    var result', picks' := result + [ball], picks + [a];
    assert result'[..|balls|] == result[..|balls|];
    forall k | 0 <= k < |picks'|
      ensures result'[|balls| + k] == Candidate(draw(picks'[k]), e)
    {
      if k < |picks| {
        assert result'[|balls| + k] == result[|balls| + k];
      }
    }
    forall k, q | 0 <= k < |picks'| && 0 <= q < |balls| + k
      ensures !IsColliding(Candidate(draw(picks'[k]), e), result'[q], sqrt)
    {
      assert result'[q] == result[q];
    }
  }

  /** Rejecting the candidate of attempt `a`, which overlaps a ball present. */
  lemma RejectStep(balls: seq<Ball>, result: seq<Ball>, picks: seq<nat>, a: nat,
                   e: real, draw: nat -> Spawn, sqrt: real -> real)
    requires IsSqrt(sqrt)
    requires Placed(balls, result, picks, a, e, draw, sqrt)
    requires CollidesWithAny(Candidate(draw(a), e), result, sqrt)
    ensures Placed(balls, result, picks, a + 1, e, draw, sqrt)
  {
    RejectKeepsRejections(balls, result, picks, a, e, draw, sqrt);
  }

  /** `Box.add_random_balls`, the acceptance loop.  `picks` are the attempts
      whose candidate was kept, in order; `attempts` is how many were made. */
  method AddRandomBalls(balls: seq<Ball>, num: int, e: real, draw: nat -> Spawn, sqrt: real -> real)
      returns (result: seq<Ball>, attempts: nat, picks: seq<nat>)
    requires IsSqrt(sqrt)
    // the balls already in the box stay, and the kept candidates follow them in order
    ensures |result| == |balls| + |picks| && result[..|balls|] == balls
    ensures forall k :: 0 <= k < |picks| ==> result[|balls| + k] == Candidate(draw(picks[k]), e)
    ensures forall p :: |balls| <= p < |result| ==> result[p].touching == {}
    ensures StrictlyIncreasing(picks)
    ensures forall k :: 0 <= k < |picks| ==> picks[k] < attempts
    // at most `num` balls, and at most `5 * num + 1` attempts
    ensures num <= 0 ==> attempts == 0 && result == balls
    ensures 0 < num ==> |picks| <= num && attempts <= 5 * num + 1
    // stopping short of `num` balls means the attempts ran out
    ensures 0 < num && |picks| < num ==> attempts == 5 * num + 1
    // a kept candidate overlaps no ball that was in the box when it was drawn
    ensures forall k, q :: 0 <= k < |picks| && 0 <= q < |balls| + k ==>
      !IsColliding(Candidate(draw(picks[k]), e), result[q], sqrt)
    // a rejected candidate overlaps a ball that was in the box when it was drawn
    ensures RejectionsRecorded(balls, result, picks, attempts, e, draw, sqrt)
  {
    result, attempts, picks := balls, 0, [];
    var placed := 0;
    while placed < num
      invariant placed == |picks|
      invariant Placed(balls, result, picks, attempts, e, draw, sqrt)
      invariant placed <= num || (num <= 0 && placed == 0)
      invariant num <= 0 ==> attempts == 0
      invariant 0 < num ==> attempts <= 5 * num + 1
      decreases 5 * num + 1 - attempts
    {
      if attempts > num * 5 {
        break;
      }
      var ball := Candidate(draw(attempts), e);
      if !CollidesWithAny(ball, result, sqrt) {
        AcceptStep(balls, result, picks, attempts, e, draw, sqrt);
        result, picks := result + [ball], picks + [attempts];
        placed := placed + 1;
      } else {
        RejectStep(balls, result, picks, attempts, e, draw, sqrt);
      }
      attempts := attempts + 1;
    }
    assert result == balls + result[|balls|..];
  }

  /** The balls placed by one call overlap neither each other nor any ball
      that was already in the box. */
  lemma {:induction false} PlacedApart(balls: seq<Ball>, result: seq<Ball>, picks: seq<nat>, e: real,
                                       draw: nat -> Spawn, sqrt: real -> real)
    requires IsSqrt(sqrt)
    requires |result| == |balls| + |picks|
    requires forall k :: 0 <= k < |picks| ==> result[|balls| + k] == Candidate(draw(picks[k]), e)
    requires forall k, q :: 0 <= k < |picks| && 0 <= q < |balls| + k ==>
      !IsColliding(Candidate(draw(picks[k]), e), result[q], sqrt)
    ensures forall p, q :: |balls| <= p < |result| && 0 <= q < |result| && p != q ==>
      !IsColliding(result[p], result[q], sqrt) && !IsColliding(result[q], result[p], sqrt)
  {
    forall p, q | |balls| <= p < |result| && 0 <= q < |result| && p != q
      ensures !IsColliding(result[p], result[q], sqrt) && !IsColliding(result[q], result[p], sqrt)
    {
      CollidingSymmetric(result[p], result[q], sqrt);
      if q < p {
        var k := p - |balls|;
        assert result[p] == Candidate(draw(picks[k]), e);
      } else {
        var k := q - |balls|;
        assert result[q] == Candidate(draw(picks[k]), e);
      }
    }
  }

  /** A box grown by the placement loop keeps its contact bookkeeping: the
      new balls touch nothing, and no old contact names them. */
  lemma {:induction false} PlacementKeepsContacts(balls: seq<Ball>, result: seq<Ball>, placed: nat, e: real)
    requires |result| == |balls| + placed && result[..|balls|] == balls
    requires forall p :: |balls| <= p < |result| ==> result[p].touching == {}
    requires Simulation.Symmetric(balls) && Simulation.Contained(balls)
    ensures Simulation.Symmetric(result) && Simulation.Contained(result)
  {
    forall i | 0 <= i < |balls|
      ensures result[i] == balls[i]
    {
      assert result[i] == result[..|balls|][i];
    }
    forall i, j | 0 <= i < |result| && 0 <= j < |result|
      ensures j in result[i].touching <==> i in result[j].touching
    {
    }
    forall i, j | 0 <= i < |result| && j in result[i].touching
      ensures j < |result|
    {
    }
  }
}

=== FILE: restitution.dfy ===
/** The one-dimensional impact law the collision code applies along the line
    of centres (ballbox.py lines 82-87): two bodies of masses `m1`, `m2` with
    normal speeds `u1`, `u2` leave with the speeds below, for a coefficient of
    restitution `e`.  The lemmas show that these are exactly the speeds
    fixed by conservation of momentum and Newton's law of restitution. */
module Restitution {
  import opened Vectors

  /** Normal speed of the first body after the impact.  The source writes the
      second body's speed with the roles swapped and the same denominator
      `m1 + m2`, which is `After(u2, u1, m2, m1, e)`. */
  function After(u1: real, u2: real, m1: real, m2: real, e: real): real
    requires m1 + m2 != 0.0
  {
    (u1 * (m1 - e * m2) + (e + 1.0) * m2 * u2) / (m1 + m2)
  }

  /** Exact division: `n / d` is the number that gives `n` when multiplied by `d`. */
  lemma DivExact(n: real, d: real, q: real)
    requires d != 0.0
    requires q == n / d
    ensures q * d == n
  {
  }

  lemma Cancel(x: real, y: real, d: real, p: real, q: real)
    requires d != 0.0
    requires p == x * d && q == y * d
    requires p == q
    ensures x == y
  {
    assert (x - y) * d == 0.0;
  }

  /** Both post-impact speeds, multiplied by the total mass, are the
      numerators of the source's formulas. */
  lemma Numerators(u1: real, u2: real, m1: real, m2: real, e: real)
    requires m1 + m2 != 0.0
    ensures After(u1, u2, m1, m2, e) * (m1 + m2) == u1 * (m1 - e * m2) + (e + 1.0) * m2 * u2
    ensures After(u2, u1, m2, m1, e) * (m1 + m2) == u2 * (m2 - e * m1) + (e + 1.0) * m1 * u1
  {
    DivExact(u1 * (m1 - e * m2) + (e + 1.0) * m2 * u2, m1 + m2, After(u1, u2, m1, m2, e));
    DivExact(u2 * (m2 - e * m1) + (e + 1.0) * m1 * u1, m2 + m1, After(u2, u1, m2, m1, e));
  }

  /** Speeds whose products with the total mass are the numerators keep the
      momentum. */
  lemma MomentumFromNumerators(u1: real, u2: real, m1: real, m2: real, e: real, a1: real, a2: real)
    requires m1 + m2 != 0.0
    requires a1 * (m1 + m2) == u1 * (m1 - e * m2) + (e + 1.0) * m2 * u2
    requires a2 * (m1 + m2) == u2 * (m2 - e * m1) + (e + 1.0) * m1 * u1
    ensures m1 * a1 + m2 * a2 == m1 * u1 + m2 * u2
  {
    var d := m1 + m2;
    assert (m1 * a1 + m2 * a2) * d == m1 * (a1 * d) + m2 * (a2 * d);
    assert m1 * (a1 * d) + m2 * (a2 * d) == (m1 * u1 + m2 * u2) * d;
    Cancel(m1 * a1 + m2 * a2, m1 * u1 + m2 * u2, d,
           (m1 * a1 + m2 * a2) * d, (m1 * u1 + m2 * u2) * d);
  }

  /** Momentum along the line of centres is conserved, whatever `e` is. */
  lemma ConservesMomentum(u1: real, u2: real, m1: real, m2: real, e: real)
    requires m1 + m2 != 0.0
    ensures m1 * After(u1, u2, m1, m2, e) + m2 * After(u2, u1, m2, m1, e) == m1 * u1 + m2 * u2
  {
    Numerators(u1, u2, m1, m2, e);
    MomentumFromNumerators(u1, u2, m1, m2, e, After(u1, u2, m1, m2, e), After(u2, u1, m2, m1, e));
  }

  /** Speeds whose products with the total mass are the numerators separate
      at `e` times the approach speed. */
  lemma SeparationFromNumerators(u1: real, u2: real, m1: real, m2: real, e: real, a1: real, a2: real)
    requires m1 + m2 != 0.0
    requires a1 * (m1 + m2) == u1 * (m1 - e * m2) + (e + 1.0) * m2 * u2
    requires a2 * (m1 + m2) == u2 * (m2 - e * m1) + (e + 1.0) * m1 * u1
    ensures a2 - a1 == e * (u1 - u2)
  {
    var d := m1 + m2;
    assert (a2 - a1) * d == a2 * d - a1 * d;
    calc {
      a2 * d - a1 * d;
      (u2 * (m2 - e * m1) + (e + 1.0) * m1 * u1) - (u1 * (m1 - e * m2) + (e + 1.0) * m2 * u2);
      e * (u1 - u2) * (m1 + m2);
      (e * (u1 - u2)) * d;
    }
    Cancel(a2 - a1, e * (u1 - u2), d, (a2 - a1) * d, (e * (u1 - u2)) * d);
  }

  /** Newton's law of restitution: the speed at which the bodies separate is
      `e` times the speed at which they approached. */
  lemma SeparationSpeed(u1: real, u2: real, m1: real, m2: real, e: real)
    requires m1 + m2 != 0.0
    ensures After(u2, u1, m2, m1, e) - After(u1, u2, m1, m2, e) == e * (u1 - u2)
  {
    Numerators(u1, u2, m1, m2, e);
    SeparationFromNumerators(u1, u2, m1, m2, e, After(u1, u2, m1, m2, e), After(u2, u1, m2, m1, e));
  }

  /** The two laws above determine the outcome: any pair of speeds that
      conserves momentum and obeys the law of restitution is the source's. */
  lemma Unique(u1: real, u2: real, m1: real, m2: real, e: real, b1: real, b2: real)
    requires m1 + m2 != 0.0
    requires m1 * b1 + m2 * b2 == m1 * u1 + m2 * u2
    requires b2 - b1 == e * (u1 - u2)
    ensures b1 == After(u1, u2, m1, m2, e) && b2 == After(u2, u1, m2, m1, e)
  {
    var a1 := After(u1, u2, m1, m2, e);
    var a2 := After(u2, u1, m2, m1, e);
    ConservesMomentum(u1, u2, m1, m2, e);
    SeparationSpeed(u1, u2, m1, m2, e);
    // Both pairs solve the same 2x2 linear system, whose determinant is m1 + m2.
    assert m1 * (b1 - a1) + m2 * (b2 - a2) == 0.0;
    assert (b2 - a2) == (b1 - a1);
    assert (b1 - a1) * (m1 + m2) == 0.0;
    Cancel(b1 - a1, 0.0, m1 + m2, (b1 - a1) * (m1 + m2), 0.0 * (m1 + m2));
  }

  /** Twice the kinetic energy of speeds `a1`, `a2` equals that of `u1`, `u2`
      for bodies of masses `m1`, `m2`. */
  predicate EnergyKept(m1: real, m2: real, a1: real, a2: real, u1: real, u2: real) {
    m1 * Sq(a1) + m2 * Sq(a2) == m1 * Sq(u1) + m2 * Sq(u2)
  }

  /** The change of energy is each body's change of momentum times the sum
      of its speeds before and after; when those products cancel, the energy
      is kept. */
  lemma EnergyFromBalance(m1: real, m2: real, a1: real, a2: real, u1: real, u2: real)
    requires (m1 * (a1 - u1)) * (a1 + u1) + (m2 * (a2 - u2)) * (a2 + u2) == 0.0
    ensures EnergyKept(m1, m2, a1, a2, u1, u2)
  {
    assert (m1 * Sq(a1) + m2 * Sq(a2)) - (m1 * Sq(u1) + m2 * Sq(u2))
        == (m1 * (a1 - u1)) * (a1 + u1) + (m2 * (a2 - u2)) * (a2 + u2);
  }

  lemma ZeroSum(p1: real, p2: real, s1: real, s2: real)
    requires p1 + p2 == 0.0 && s1 == s2
    ensures p1 * s1 + p2 * s2 == 0.0
  {
    assert p1 * s1 + p2 * s2 == (p1 + p2) * s1;
  }

  /** Speeds that keep the momentum and whose sums agree keep the energy. */
  lemma EnergyIdentity(m1: real, m2: real, a1: real, a2: real, u1: real, u2: real)
    requires m1 * a1 + m2 * a2 == m1 * u1 + m2 * u2
    requires a1 + u1 == a2 + u2
    ensures EnergyKept(m1, m2, a1, a2, u1, u2)
  {
    ZeroSum(m1 * (a1 - u1), m2 * (a2 - u2), a1 + u1, a2 + u2);
    EnergyFromBalance(m1, m2, a1, a2, u1, u2);
  }

  /** With `e == 1` the kinetic energy of the normal motion is conserved. */
  lemma ElasticKeepsEnergy(u1: real, u2: real, m1: real, m2: real)
    requires m1 + m2 != 0.0
    ensures EnergyKept(m1, m2, After(u1, u2, m1, m2, 1.0), After(u2, u1, m2, m1, 1.0), u1, u2)
  {
    ConservesMomentum(u1, u2, m1, m2, 1.0);
    SeparationSpeed(u1, u2, m1, m2, 1.0);
    EnergyIdentity(m1, m2, After(u1, u2, m1, m2, 1.0), After(u2, u1, m2, m1, 1.0), u1, u2);
  }

  /** With `e == 0` the bodies leave with the same normal speed. */
  lemma InelasticSticks(u1: real, u2: real, m1: real, m2: real)
    requires m1 + m2 != 0.0
    ensures After(u1, u2, m1, m2, 0.0) == After(u2, u1, m2, m1, 0.0)
  {
    SeparationSpeed(u1, u2, m1, m2, 0.0);
  }
}

=== FILE: schedule.dfy ===
/** The order in which `Box.time_step` (ballbox.py lines 142-147) touches the
    balls, as a list of operations.  For each index `i` in turn the ball is
    advanced (moved and checked against the walls), and then checked against
    every later ball `j`, in increasing `j`.  So the schedule for `n` balls is

      Advance(0), Resolve(0, 1), ..., Resolve(0, n-1), Advance(1), Resolve(1, 2), ...

    The lemmas show that it holds every pair `i < j` exactly once, in
    lexicographic order, each ball advanced exactly once, and that ball `i`
    is advanced before its pairs are resolved while a later ball `j` is not. */
module Schedule {

  datatype Op = Advance(ball: nat) | Resolve(ball: nat, other: nat)

  /** The pair checks of ball `i` against the balls `lo .. hi - 1`, in order. */
  function Pairs(i: nat, lo: nat, hi: nat): (ops: seq<Op>)
    ensures |ops| == if lo <= hi then hi - lo else 0
    ensures forall k :: 0 <= k < |ops| ==> ops[k] == Resolve(i, lo + k)
    decreases hi
  {
    if hi <= lo then [] else Pairs(i, lo, hi - 1) + [Resolve(i, hi - 1)]
  }

  /** One pass of the outer loop: advance ball `i`, then check it against
      every later ball. */
  function Row(i: nat, n: nat): seq<Op> {
    [Advance(i)] + Pairs(i, i + 1, n)
  }

  /** The first `k` passes of the outer loop. */
  function Rows(k: nat, n: nat): seq<Op>
    decreases k
  {
    if k == 0 then [] else Rows(k - 1, n) + Row(k - 1, n)
  }

  /** The whole schedule of one step of a box holding `n` balls. */
  function Order(n: nat): seq<Op> {
    Rows(n, n)
  }

  /** The operations a box of `n` balls can perform. */
  predicate ValidOp(op: Op, n: nat) {
    match op
    case Advance(i) => i < n
    case Resolve(i, j) => i < j < n
  }

  /** Sort key: the outer-loop index first, then the partner, with the
      advance of a ball keyed by the ball itself (before all its partners). */
  function Key(op: Op): (nat, nat) {
    match op
    case Advance(i) => (i, i)
    case Resolve(i, j) => (i, j)
  }

  predicate KeyBefore(p: (nat, nat), q: (nat, nat)) {
    p.0 < q.0 || (p.0 == q.0 && p.1 < q.1)
  }

  /** Strictly increasing by key. */
  predicate Ascending(ops: seq<Op>) {
    forall p, q :: 0 <= p < q < |ops| ==> KeyBefore(Key(ops[p]), Key(ops[q]))
  }

  lemma PairsContents(i: nat, lo: nat, hi: nat, op: Op)
    ensures op in Pairs(i, lo, hi) <==> op.Resolve? && op.ball == i && lo <= op.other < hi
  {
    var ops := Pairs(i, lo, hi);
    if op.Resolve? && op.ball == i && lo <= op.other < hi {
      assert ops[op.other - lo] == op;
    }
  }

  lemma RowContents(i: nat, n: nat, op: Op)
    ensures op in Row(i, n) <==> (op == Advance(i) || (op.Resolve? && op.ball == i && i < op.other < n))
  {
    PairsContents(i, i + 1, n, op);
  }

  /** The first `k` passes hold exactly the valid operations whose outer index
      is below `k`. */
  lemma {:induction false} RowsContents(k: nat, n: nat, op: Op)
    requires k <= n
    ensures op in Rows(k, n) <==> ValidOp(op, n) && op.ball < k
  {
    if k > 0 {
      var xs, ys := Rows(k - 1, n), Row(k - 1, n);
      assert Rows(k, n) == xs + ys;
      assert op in xs + ys <==> op in xs || op in ys;
      RowsContents(k - 1, n, op);
      RowContents(k - 1, n, op);
    }
  }

  /** Every advance of a ball and every pair `i < j` of a box of `n` balls is
      in the schedule, and nothing else is. */
  lemma OrderContents(n: nat, op: Op)
    ensures op in Order(n) <==> ValidOp(op, n)
  {
    RowsContents(n, n, op);
  }

  lemma RowAscending(i: nat, n: nat)
    ensures Ascending(Row(i, n))
  {
    var row := Row(i, n);
    forall p, q | 0 <= p < q < |row|
      ensures KeyBefore(Key(row[p]), Key(row[q]))
    {
      assert row[q] == Resolve(i, i + q);
      if p > 0 {
        assert row[p] == Resolve(i, i + p);
      }
    }
  }

  /** Concatenating two ascending lists whose keys are separated keeps the
      whole ascending. */
  lemma AscendingAppend(xs: seq<Op>, ys: seq<Op>, k: nat)
    requires Ascending(xs) && Ascending(ys)
    requires forall p :: 0 <= p < |xs| ==> Key(xs[p]).0 < k
    requires forall q :: 0 <= q < |ys| ==> Key(ys[q]).0 == k
    ensures Ascending(xs + ys)
  {
    var zs := xs + ys;
    forall p, q | 0 <= p < q < |zs|
      ensures KeyBefore(Key(zs[p]), Key(zs[q]))
    {
      if q < |xs| {
        assert zs[p] == xs[p] && zs[q] == xs[q];
      } else if p < |xs| {
        assert zs[p] == xs[p] && zs[q] == ys[q - |xs|];
      } else {
        assert zs[p] == ys[p - |xs|] && zs[q] == ys[q - |xs|];
      }
    }
  }

  lemma {:induction false} RowsAscending(k: nat, n: nat)
    requires k <= n
    ensures Ascending(Rows(k, n))
  {
    if k > 0 {
      var xs, ys := Rows(k - 1, n), Row(k - 1, n);
      RowsAscending(k - 1, n);
      RowAscending(k - 1, n);
      forall p | 0 <= p < |xs|
        ensures Key(xs[p]).0 < k - 1
      {
        RowsContents(k - 1, n, xs[p]);
        assert xs[p].ball < k - 1;
      }
      forall q | 0 <= q < |ys|
        ensures Key(ys[q]).0 == k - 1
      {
        RowContents(k - 1, n, ys[q]);
      }
      AscendingAppend(xs, ys, k - 1);
    }
  }

  /** The schedule runs in lexicographic order of (ball, partner), the advance
      of each ball coming first in its row. */
  lemma OrderAscending(n: nat)
    ensures Ascending(Order(n))
  {
    RowsAscending(n, n);
  }

  /** In an ascending list the position follows the key order. */
  lemma AscendingPositions(ops: seq<Op>, p: nat, q: nat)
    requires Ascending(ops)
    requires p < |ops| && q < |ops|
    requires KeyBefore(Key(ops[p]), Key(ops[q]))
    ensures p < q
  {
  }

  /** No operation occurs twice. */
  lemma OrderDistinct(n: nat)
    ensures forall p, q :: 0 <= p < q < |Order(n)| ==> Order(n)[p] != Order(n)[q]
  {
    OrderAscending(n);
  }

  /** Within the step, ball `i` has been advanced before it is checked against
      a later ball `j`, and ball `j` has not yet been advanced at that point. */
  lemma AdvanceAroundPair(n: nat, i: nat, j: nat, pa: nat, pr: nat, pb: nat)
    requires pa < |Order(n)| && pr < |Order(n)| && pb < |Order(n)|
    requires Order(n)[pa] == Advance(i)
    requires Order(n)[pr] == Resolve(i, j)
    requires Order(n)[pb] == Advance(j)
    ensures i < j < n
    ensures pa < pr < pb
  {
    OrderContents(n, Resolve(i, j));
    OrderAscending(n);
    AscendingPositions(Order(n), pa, pr);
    AscendingPositions(Order(n), pr, pb);
  }

  /** The schedule has one advance per ball and one check per pair. */
  lemma {:induction false} RowsLength(k: nat, n: nat)
    requires k <= n
    ensures 2 * |Rows(k, n)| == k * (2 * n + 1 - k)
  {
    if k > 0 {
      RowsLength(k - 1, n);
      assert |Rows(k, n)| == |Rows(k - 1, n)| + (n - k + 1);
      RowsArith(k, n, 2 * |Rows(k - 1, n)|);
    }
  }

  lemma RowsArith(k: int, n: int, prev: int)
    requires prev == (k - 1) * (2 * n + 2 - k)
    ensures prev + 2 * (n - k + 1) == k * (2 * n + 1 - k)
  {
  }

  lemma OrderLength(n: nat)
    ensures 2 * |Order(n)| == n * (n + 1)
  {
    RowsLength(n, n);
  }

  /** The nested loop of `Box.time_step` (lines 143-147), recording what it
      does instead of doing it: the outer loop advances each ball in list
      order, and the inner loop then checks it against every later ball. */
  method Visit(n: nat) returns (ops: seq<Op>)
    ensures ops == Order(n)
    ensures forall op :: op in ops <==> ValidOp(op, n)
    ensures Ascending(ops)
    ensures 2 * |ops| == n * (n + 1)
  {
    ops := [];
    var i := 0;
    while i < n
      invariant i <= n
      invariant ops == Rows(i, n)
    {
      var row := [Advance(i)];
      var j := i + 1;
      while j < n
        invariant i + 1 <= j <= n
        invariant row == [Advance(i)] + Pairs(i, i + 1, j)
      {
        row := row + [Resolve(i, j)];
        j := j + 1;
      }
      assert row == Row(i, n);
      ops := ops + row;
      i := i + 1;
    }
    forall op
      ensures op in ops <==> ValidOp(op, n)
    {
      OrderContents(n, op);
    }
    OrderAscending(n);
    OrderLength(n);
  }
}

=== FILE: simulation.dfy ===
/** The box (class `Box`, ballbox.py lines 101-155): its size and its list of
    balls, one step of the simulation (`Box.time_step`) and one animation
    frame (`Box.update_fig`).

    A step folds the operations of `Schedule.Order` over the box, one at a
    time; `Schedule.Visit` shows that the source's nested loop visits the
    balls in exactly that order. */
module Simulation {
  import opened Vectors
  import Balls
  import opened Schedule

  datatype Box = Box(sizeX: real, sizeY: real, balls: seq<Balls.Ball>)

  /** Contacts are recorded on both sides: ball `j` is in ball `i`'s touching
      set exactly when `i` is in `j`'s.  The source appends and removes the
      two entries together, and relies on this when it removes them. */
  predicate Symmetric(balls: seq<Balls.Ball>) {
    forall i, j :: 0 <= i < |balls| && 0 <= j < |balls| ==>
      (j in balls[i].touching <==> i in balls[j].touching)
  }

  /** Every recorded contact names a ball of the box. */
  predicate Contained(balls: seq<Balls.Ball>) {
    forall i, j :: 0 <= i < |balls| && j in balls[i].touching ==> j < |balls|
  }

  /** No ball has radius zero, so no pair has total mass zero. */
  predicate NonDegenerate(balls: seq<Balls.Ball>) {
    forall i :: 0 <= i < |balls| ==> balls[i].r != 0.0
  }

  /** The same balls, in the same places of the list, with the same radii
      and coefficients of restitution. */
  predicate SameBodies(a: seq<Balls.Ball>, b: seq<Balls.Ball>) {
    |a| == |b| && forall k :: 0 <= k < |a| ==> a[k].r == b[k].r && a[k].e == b[k].e
  }

  predicate AllValid(ops: seq<Op>, n: nat) {
    forall op :: op in ops ==> ValidOp(op, n)
  }

  /** Lines 144-145: move ball `i` by one sub-step and bounce it off a wall. */
  function AdvanceBall(box: Box, i: nat, n: int): (r: Box)
    requires i < |box.balls| && n > 0
    ensures r.sizeX == box.sizeX && r.sizeY == box.sizeY && |r.balls| == |box.balls|
    ensures forall k :: 0 <= k < |box.balls| && k != i ==> r.balls[k] == box.balls[k]
    ensures r.balls[i].touching == box.balls[i].touching
    ensures r.balls[i].r == box.balls[i].r && r.balls[i].e == box.balls[i].e
    ensures r.balls[i] == Balls.Move(box.balls[i], n, box.sizeX, box.sizeY)
  {
    var b := box.balls[i];
    box.(balls := box.balls[i := Balls.CheckWallCollision(Balls.TimeStep(b, n), box.sizeX, box.sizeY)])
  }

  lemma PairFacts(balls: seq<Balls.Ball>, i: nat, j: nat)
    requires Symmetric(balls) && NonDegenerate(balls)
    requires i < j < |balls|
    ensures j in balls[i].touching <==> i in balls[j].touching
    ensures Balls.Mass(balls[i]) + Balls.Mass(balls[j]) != 0.0
  {
    var m1, m2 := Balls.Mass(balls[i]), Balls.Mass(balls[j]);
    assert 0.0 < m1;
  }

  /** Line 147: check ball `i` against the later ball `j`; nothing else in the
      box changes. */
  function ResolvePair(box: Box, i: nat, j: nat, sqrt: real -> real): (r: Box)
    requires IsSqrt(sqrt)
    requires Symmetric(box.balls) && NonDegenerate(box.balls)
    requires i < j < |box.balls|
    ensures r.sizeX == box.sizeX && r.sizeY == box.sizeY && |r.balls| == |box.balls|
    ensures forall k :: 0 <= k < |box.balls| && k != i && k != j ==> r.balls[k] == box.balls[k]
    ensures (r.balls[i], r.balls[j]) == Balls.CheckBallCollision(box.balls[i], i, box.balls[j], j, sqrt)
  {
    PairFacts(box.balls, i, j);
    var (c, d) := Balls.CheckBallCollision(box.balls[i], i, box.balls[j], j, sqrt);
    box.(balls := box.balls[i := c][j := d])
  }

  /** Resolving a pair keeps the contacts mutual: the pair itself agrees by
      construction, and every other contact is left as it was. */
  lemma {:induction false} ResolvePairSymmetric(box: Box, i: nat, j: nat, sqrt: real -> real)
    requires IsSqrt(sqrt)
    requires Symmetric(box.balls) && NonDegenerate(box.balls)
    requires i < j < |box.balls|
    ensures Symmetric(ResolvePair(box, i, j, sqrt).balls)
  {
    var before := box.balls;
    var after := ResolvePair(box, i, j, sqrt).balls;
    assert after[i].touching - {j} == before[i].touching - {j};
    assert after[j].touching - {i} == before[j].touching - {i};
    forall p, q | 0 <= p < |after| && 0 <= q < |after|
      ensures q in after[p].touching <==> p in after[q].touching
    {
      if (p == i && q == j) || (p == j && q == i) {
      } else {
        assert q in after[p].touching <==> q in before[p].touching by {
          if p == i {
            assert q != j || p == q;
          }
        }
        assert p in after[q].touching <==> p in before[q].touching by {
          if q == i {
            assert p != j || p == q;
          }
        }
      }
    }
  }

  /** One operation of the schedule. */
  function ApplyOp(box: Box, op: Op, n: int, sqrt: real -> real): (r: Box)
    requires IsSqrt(sqrt) && n > 0
    requires Symmetric(box.balls) && NonDegenerate(box.balls)
    requires ValidOp(op, |box.balls|)
    ensures r.sizeX == box.sizeX && r.sizeY == box.sizeY
    ensures SameBodies(r.balls, box.balls)
    ensures Symmetric(r.balls) && NonDegenerate(r.balls)
    ensures Contained(box.balls) ==> Contained(r.balls)
    // the balls the operation does not name are left alone
    ensures forall k :: 0 <= k < |box.balls| && k != op.ball && (op.Resolve? ==> k != op.other) ==>
      r.balls[k] == box.balls[k]
  {
    match op
    case Advance(i) =>
      var r := AdvanceBall(box, i, n);
      assert forall k :: 0 <= k < |r.balls| ==> r.balls[k].touching == box.balls[k].touching;
      r
    case Resolve(i, j) =>
      ResolvePairSymmetric(box, i, j, sqrt);
      var r := ResolvePair(box, i, j, sqrt);
      assert r.balls[i].touching <= box.balls[i].touching + {j};
      assert r.balls[j].touching <= box.balls[j].touching + {i};
      r
  }

  /** The operations `ops`, in order. */
  function Apply(box: Box, ops: seq<Op>, n: int, sqrt: real -> real): (r: Box)
    requires IsSqrt(sqrt) && n > 0
    requires Symmetric(box.balls) && NonDegenerate(box.balls)
    requires AllValid(ops, |box.balls|)
    ensures r.sizeX == box.sizeX && r.sizeY == box.sizeY
    ensures SameBodies(r.balls, box.balls)
    ensures Symmetric(r.balls) && NonDegenerate(r.balls)
    ensures Contained(box.balls) ==> Contained(r.balls)
    decreases |ops|
  {
    if ops == [] then box
    else
      var prefix := ops[..|ops| - 1];
      assert forall op :: op in prefix ==> op in ops;
      var mid := Apply(box, prefix, n, sqrt);
      assert ops[|ops| - 1] in ops;
      ApplyOp(mid, ops[|ops| - 1], n, sqrt)
  }

  /** Every operation of a step's schedule names balls of the box. */
  lemma OrderValid(count: nat)
    ensures AllValid(Order(count), count)
  {
    forall op | op in Order(count)
      ensures ValidOp(op, count)
    {
      OrderContents(count, op);
    }
  }

  /** `Box.time_step` (lines 142-147): for each ball in list order, advance
      it, then check it against every later ball; that is, the schedule
      `Order` applied to the box.  The sizes, the balls' radii and
      coefficients, and the mutual bookkeeping of contacts are kept. */
  function TimeStep(box: Box, n: int, sqrt: real -> real): (r: Box)
    requires IsSqrt(sqrt) && n > 0
    requires Symmetric(box.balls) && NonDegenerate(box.balls)
    ensures r.sizeX == box.sizeX && r.sizeY == box.sizeY
    ensures SameBodies(r.balls, box.balls)
    ensures Symmetric(r.balls) && NonDegenerate(r.balls)
    ensures Contained(box.balls) ==> Contained(r.balls)
  {
    OrderValid(|box.balls|);
    Apply(box, Order(|box.balls|), n, sqrt)
  }

  /** The first `k` of the `n` sub-steps of a frame. */
  function SubSteps(box: Box, k: nat, n: int, sqrt: real -> real): (r: Box)
    requires IsSqrt(sqrt) && n > 0
    requires Symmetric(box.balls) && NonDegenerate(box.balls)
    ensures r.sizeX == box.sizeX && r.sizeY == box.sizeY
    ensures SameBodies(r.balls, box.balls)
    ensures Symmetric(r.balls) && NonDegenerate(r.balls)
    ensures Contained(box.balls) ==> Contained(r.balls)
    decreases k
  {
    if k == 0 then box else TimeStep(SubSteps(box, k - 1, n, sqrt), n, sqrt)
  }

  /** `Box.update_fig` (lines 149-151), without the redrawing: `n` sub-steps,
      each advancing by `1 / n` of the velocities.  A count of zero or less
      runs no sub-step, so nothing divides by it. */
  function UpdateFig(box: Box, n: int, sqrt: real -> real): (r: Box)
    requires IsSqrt(sqrt)
    requires Symmetric(box.balls) && NonDegenerate(box.balls)
    ensures n <= 0 ==> r == box
    ensures r.sizeX == box.sizeX && r.sizeY == box.sizeY
    ensures SameBodies(r.balls, box.balls)
    ensures Symmetric(r.balls) && NonDegenerate(r.balls)
    ensures Contained(box.balls) ==> Contained(r.balls)
  {
    if n <= 0 then box else SubSteps(box, n, n, sqrt)
  }

  /** The schedule of a box holding one ball is that ball's advance alone. */
  lemma OrderOfOne()
    ensures Order(1) == [Advance(0)]
  {
    assert Pairs(0, 1, 1) == [];
    assert Rows(0, 1) == [];
  }

  /** A step of a box holding a single ball moves that ball and bounces it
      off the walls, and does nothing else. */
  lemma LoneBallStep(box: Box, n: int, sqrt: real -> real)
    requires IsSqrt(sqrt) && n > 0
    requires |box.balls| == 1
    requires Symmetric(box.balls) && NonDegenerate(box.balls)
    ensures TimeStep(box, n, sqrt) == box.(balls := [Balls.Move(box.balls[0], n, box.sizeX, box.sizeY)])
  {
    OrderOfOne();
    var ops := [Advance(0)];
    assert AllValid(ops, 1);
    assert TimeStep(box, n, sqrt) == Apply(box, ops, n, sqrt);
    assert ops[..0] == [];
    assert Apply(box, ops, n, sqrt) == ApplyOp(box, Advance(0), n, sqrt);
    assert ApplyOp(box, Advance(0), n, sqrt) == AdvanceBall(box, 0, n);
    assert AdvanceBall(box, 0, n).balls == [Balls.Move(box.balls[0], n, box.sizeX, box.sizeY)];
  }

  /** No sub-steps leave a lone ball where it was. */
  lemma LoneBallFrameZero(box: Box, n: int, sqrt: real -> real)
    requires IsSqrt(sqrt) && n > 0
    requires |box.balls| == 1
    requires Symmetric(box.balls) && NonDegenerate(box.balls)
    ensures SubSteps(box, 0, n, sqrt) == box.(balls := [Balls.Flight(box.balls[0], 0, n, box.sizeX, box.sizeY)])
  {
    assert box.balls == [box.balls[0]];
  }

  /** One more sub-step of a one-ball box is one more move of its ball. */
  lemma LoneBallFrameStep(box: Box, k: nat, n: int, sqrt: real -> real)
    requires IsSqrt(sqrt) && n > 0 && k > 0
    requires |box.balls| == 1
    requires Symmetric(box.balls) && NonDegenerate(box.balls)
    requires SubSteps(box, k - 1, n, sqrt) == box.(balls := [Balls.Flight(box.balls[0], k - 1, n, box.sizeX, box.sizeY)])
    ensures SubSteps(box, k, n, sqrt) == box.(balls := [Balls.Flight(box.balls[0], k, n, box.sizeX, box.sizeY)])
  {
    LoneBallStep(SubSteps(box, k - 1, n, sqrt), n, sqrt);
  }

  /** The first `k` sub-steps of a frame move a lone ball as `Balls.Flight`
      does: nothing else in the box changes. */
  lemma {:induction false} LoneBallFrame(box: Box, k: nat, n: int, sqrt: real -> real)
    requires IsSqrt(sqrt) && n > 0
    requires |box.balls| == 1
    requires Symmetric(box.balls) && NonDegenerate(box.balls)
    ensures SubSteps(box, k, n, sqrt) == box.(balls := [Balls.Flight(box.balls[0], k, n, box.sizeX, box.sizeY)])
  {
    LoneBallFrameZero(box, n, sqrt);
    var i := 0;
    while i < k
      invariant i <= k
      invariant SubSteps(box, i, n, sqrt) == box.(balls := [Balls.Flight(box.balls[0], i, n, box.sizeX, box.sizeY)])
    {
      i := i + 1;
      LoneBallFrameStep(box, i, n, sqrt);
    }
  }

  /** A frame with no wall contact moves a lone ball by exactly its velocity
      and changes nothing else in the box. */
  lemma LoneBallFrameMovesByVelocity(box: Box, n: int, sqrt: real -> real)
    requires IsSqrt(sqrt) && n > 0
    requires |box.balls| == 1
    requires Symmetric(box.balls) && NonDegenerate(box.balls)
    requires Balls.ClearFor(box.balls[0], n, n, box.sizeX, box.sizeY)
    ensures UpdateFig(box, n, sqrt)
         == box.(balls := [box.balls[0].(x := box.balls[0].x + box.balls[0].v.x, y := box.balls[0].y + box.balls[0].v.y)])
  {
    var b := box.balls[0];
    assert UpdateFig(box, n, sqrt) == SubSteps(box, n, n, sqrt);
    LoneBallFrame(box, n, n, sqrt);
    Balls.FrameMovesByVelocity(b, n, box.sizeX, box.sizeY);
    assert Balls.Flight(b, n, n, box.sizeX, box.sizeY) == b.(x := b.x + b.v.x, y := b.y + b.v.y);
  }
}

=== FILE: vectors.dfy ===
/** Two-component real vectors: the value type every physical quantity of the
    engine is built from (position offsets, velocities, collision normals).

    Python's `math.sqrt` has no counterpart in Dafny.  Every operation that
    needs it takes the square root as a parameter `sqrt` together with the
    requirement `IsSqrt(sqrt)`: on non-negative arguments it returns the
    non-negative root.  Nothing else about `sqrt` is assumed. */
module Vectors {

  datatype Vec = Vec(x: real, y: real)

  const Zero := Vec(0.0, 0.0)

  function Sq(x: real): real {
    x * x
  }

  /** `sqrt` returns the non-negative square root of every non-negative real. */
  ghost predicate IsSqrt(sqrt: real -> real) {
    forall s :: 0.0 <= s ==> 0.0 <= sqrt(s) && Sq(sqrt(s)) == s
  }

  /** `Vector2D.__add__`. */
  function Add(a: Vec, b: Vec): (c: Vec)
    ensures a == Zero ==> c == b
    ensures b == Zero ==> c == a
  {
    Vec(a.x + b.x, a.y + b.y)
  }

  /** `Vector2D.__mul__` and `__rmul__`: the scalar multiplies each component. */
  function Scale(v: Vec, k: real): (w: Vec)
    ensures k == 1.0 ==> w == v
    ensures k == 0.0 || v == Zero ==> w == Zero
  {
    Vec(v.x * k, v.y * k)
  }

  /** `Vector2D.dot_product`. */
  function Dot(a: Vec, b: Vec): real {
    a.x * b.x + a.y * b.y
  }

  /** The dot product is symmetric and linear in each argument, and zero
      against the zero vector. */
  lemma DotLaws(a: Vec, b: Vec, c: Vec, k: real)
    ensures Dot(a, b) == Dot(b, a)
    ensures Dot(Add(a, b), c) == Dot(a, c) + Dot(b, c)
    ensures Dot(Scale(a, k), b) == k * Dot(a, b)
    ensures Dot(Zero, a) == 0.0
  {
  }

  /** The vector turned a quarter turn anticlockwise; the collision code builds
      its unit tangent this way from the unit normal. */
  function Perp(n: Vec): Vec {
    Vec(-n.y, n.x)
  }

  /** The vector with coordinates `p` along `n` and `q` along `Perp(n)`. */
  function Combine(n: Vec, p: real, q: real): Vec {
    Add(Scale(n, p), Scale(Perp(n), q))
  }

  lemma MulPos(a: real, b: real, p: real)
    requires p == a * b
    requires 0.0 < a && 0.0 < b
    ensures 0.0 < p
  {
  }

  /** Replacing equals by equals inside a product or a weighted sum; the
      solver does not always do this by itself for non-linear terms. */
  lemma Reweigh(k1: real, x1: real, j1: real, y1: real, k2: real, x2: real, j2: real, y2: real)
    requires k1 == j1 && x1 == y1 && k2 == j2 && x2 == y2
    ensures k1 * x1 + k2 * x2 == j1 * y1 + j2 * y2
  {
  }

  lemma Rescale(k: real, x: real, j: real, y: real)
    requires k == j && x == y
    ensures k * x == j * y
  {
  }

  lemma SqSign(x: real)
    ensures 0.0 <= Sq(x)
    ensures x != 0.0 ==> 0.0 < Sq(x)
  {
    if x > 0.0 {
      MulPos(x, x, Sq(x));
    } else if x < 0.0 {
      MulPos(-x, -x, Sq(x));
    } else {
      assert Sq(x) == 0.0 * 0.0;
    }
  }

  /** The squared length of a vector is non-negative, and zero only for the
      zero vector. */
  lemma DotSelf(v: Vec)
    ensures Dot(v, v) == Sq(v.x) + Sq(v.y)
    ensures 0.0 <= Dot(v, v)
    ensures Dot(v, v) == 0.0 <==> v == Zero
  {
    SqSign(v.x);
    SqSign(v.y);
  }

  /** The one fact about the oracle each caller uses. */
  lemma Root(sqrt: real -> real, s: real)
    requires IsSqrt(sqrt)
    requires 0.0 <= s
    ensures 0.0 <= sqrt(s) && Sq(sqrt(s)) == s
    ensures sqrt(s) == 0.0 <==> s == 0.0
  {
    SqSign(sqrt(s));
  }

  /** `Vector2D.magnitude`: the Euclidean length, except that the zero vector
      has magnitude 1 so that normalising it never divides by zero. */
  function Magnitude(v: Vec, sqrt: real -> real): (m: real)
    requires IsSqrt(sqrt)
    ensures 0.0 < m
    ensures v == Zero ==> m == 1.0
    ensures v != Zero ==> Sq(m) == Dot(v, v)
  {
    DotSelf(v);
    Root(sqrt, v.x * v.x + v.y * v.y);
    var root := sqrt(v.x * v.x + v.y * v.y);
    if root == 0.0 then 1.0 else root
  }

  /** `Vector2D.get_unit_vector`: the zero vector maps to itself, any other
      vector to the vector of length one pointing the same way. */
  function UnitVector(v: Vec, sqrt: real -> real): (u: Vec)
    requires IsSqrt(sqrt)
    ensures v == Zero ==> u == Zero
    ensures v != Zero ==> Dot(u, u) == 1.0
    ensures v != Zero ==> 0.0 < Dot(u, v) && u.x * v.y == u.y * v.x
  {
    var m := Magnitude(v, sqrt);
    var u := Vec(v.x / m, v.y / m);
    UnitVectorFacts(v, m, u);
    u
  }

  lemma UnitVectorFacts(v: Vec, m: real, u: Vec)
    requires 0.0 < m
    requires v != Zero ==> Sq(m) == Dot(v, v)
    requires u == Vec(v.x / m, v.y / m)
    ensures v != Zero ==> Dot(u, u) == 1.0
    ensures v != Zero ==> 0.0 < Dot(u, v) && u.x * v.y == u.y * v.x
  {
    if v != Zero {
      assert u.x * m == v.x;
      assert u.y * m == v.y;
      calc {
        Dot(u, u) * (m * m);
        (u.x * m) * (u.x * m) + (u.y * m) * (u.y * m);
        Dot(v, v);
        1.0 * (m * m);
      }
      assert Dot(u, v) * m == Dot(v, v);
      DotSelf(v);
    }
  }

  lemma CombineZero(p: real, q: real)
    ensures Combine(Zero, p, q) == Zero
  {
    assert Perp(Zero) == Zero;
    assert Scale(Zero, p) == Zero;
    assert Scale(Zero, q) == Zero;
    assert Add(Zero, Zero) == Zero;
  }

  /** A unit vector and its quarter turn form an orthonormal basis. */
  lemma Orthonormal(n: Vec)
    requires Dot(n, n) == 1.0
    ensures Dot(Perp(n), Perp(n)) == 1.0
    ensures Dot(n, Perp(n)) == 0.0 && Dot(Perp(n), n) == 0.0
  {
  }

  /** The components of a combination. */
  lemma CombineComponents(n: Vec, p: real, q: real)
    ensures Combine(n, p, q) == Vec(n.x * p + Perp(n).x * q, n.y * p + Perp(n).y * q)
  {
  }

  /** Reading back the coordinates of a combination gives the coordinates. */
  lemma {:induction false} CombineCoordinates(n: Vec, p: real, q: real)
    requires Dot(n, n) == 1.0
    ensures Dot(Combine(n, p, q), n) == p
    ensures Dot(Combine(n, p, q), Perp(n)) == q
  {
    var t := Perp(n);
    CombineComponents(n, p, q);
    calc {
      Dot(Combine(n, p, q), n);
      (n.x * p + t.x * q) * n.x + (n.y * p + t.y * q) * n.y;
      p * (n.x * n.x + n.y * n.y) + q * (t.x * n.x + t.y * n.y);
      p * Dot(n, n) + q * Dot(t, n);
    }
    Orthonormal(n);
    calc {
      Dot(Combine(n, p, q), t);
      (n.x * p + t.x * q) * t.x + (n.y * p + t.y * q) * t.y;
      p * (n.x * t.x + n.y * t.y) + q * (t.x * t.x + t.y * t.y);
      p * Dot(n, t) + q * Dot(t, t);
    }
  }

  /** Every vector is the combination of its own coordinates along a unit
      vector and its quarter turn. */
  lemma {:induction false} Decompose(w: Vec, n: Vec)
    requires Dot(n, n) == 1.0
    ensures Combine(n, Dot(w, n), Dot(w, Perp(n))) == w
  {
    var c := Combine(n, Dot(w, n), Dot(w, Perp(n)));
    calc {
      c.x;
      n.x * (w.x * n.x + w.y * n.y) + (-n.y) * (w.x * (-n.y) + w.y * n.x);
      w.x * (n.x * n.x + n.y * n.y);
      w.x;
    }
    calc {
      c.y;
      n.y * (w.x * n.x + w.y * n.y) + n.x * (w.x * (-n.y) + w.y * n.x);
      w.y * (n.x * n.x + n.y * n.y);
      w.y;
    }
  }

  /** The squared length of a vector is the sum of the squares of its
      coordinates in an orthonormal basis. */
  lemma {:induction false} Pythagoras(w: Vec, n: Vec)
    requires Dot(n, n) == 1.0
    ensures Dot(w, w) == Sq(Dot(w, n)) + Sq(Dot(w, Perp(n)))
  {
    var p := Dot(w, n);
    var q := Dot(w, Perp(n));
    calc {
      p * p + q * q;
      (w.x * n.x + w.y * n.y) * (w.x * n.x + w.y * n.y)
        + (w.y * n.x - w.x * n.y) * (w.y * n.x - w.x * n.y);
      (w.x * w.x + w.y * w.y) * (n.x * n.x + n.y * n.y);
      Dot(w, w) * Dot(n, n);
    }
  }

  /** Combining is linear in the coordinates. */
  lemma CombineLinear(n: Vec, p1: real, q1: real, p2: real, q2: real, k1: real, k2: real)
    ensures Add(Scale(Combine(n, p1, q1), k1), Scale(Combine(n, p2, q2), k2))
         == Combine(n, k1 * p1 + k2 * p2, k1 * q1 + k2 * q2)
  {
  }
}
